=== FILE: README.md ===
# GeoCopy in Dafny

A model of the geofence-copying core of GeoCopy (`src/geo.ts`). A sheet's
geofence partitions are child sheets whose filter expression is
`IsInPolygon('<polygon id>',Lat,Long)`, where the id names a polygon stored
with the parent sheet. `GeoCopy.Copy` copies the tree of partitions of one
sheet onto another:
- it scans the source sheet for its partitions;
- it adds each partition to the destination sheet, reusing a child of the
  same name or creating a new polygon and child sheet;
- it recurses into each (source partition, destination partition) pair
  before it starts the next sibling.

Modules, in dependency order:

- `Wrappers`: `Option` and `Result`.
- `FilterCodec`: `CreateFilter` and `GetPolygonIdFromFilter`, the static
  members of the `GeoScan` class of geo.ts that write and read a partition's
  filter (src/geo.ts:194-209). They have a module of their own because the
  scanner and the writer both depend on them.
  - The regular expression `/IsInPolygon.'(.+)',Lat,Long/i` is modelled
    declaratively, with JavaScript semantics:
    - the leftmost match wins;
    - the greedy `.+` keeps the longest capture;
    - `.` matches anything but a line terminator;
    - `i` folds ASCII letters only.
  - The decoder is also modelled as the engine's scan (`FindMatch`,
    `LastCaptureEnd`), and the two are proved equal.
- `TaskHelper`: `ForEachAsync` and `Work`, the strictly sequential,
  order-preserving asynchronous map.
  - The handler's effects are explicit: it takes the state left by the
    previous item and returns the new state, or rejects.
  - `RunPrefix` is an independent reference semantics for it.
- `SheetService`: the sheet and polygon services that the core calls,
  written as an explicit, immutable state that the operations thread
  through. The state holds:
  - each sheet's child entries `{Id, Name, Filter}` in enumeration order,
    and its record count;
  - the polygons, keyed by owning sheet and polygon id;
  - one counter that supplies fresh sheet and polygon ids.

  `GetChildren` and `GetCountRecords` of a sheet the service does not hold
  reject with `ServiceFailure`. `GetPolygonById` resolves to null for an
  unknown polygon. `CreatePolygon` stores a polygon under any sheet id.
  `CreateChildSheetFromFilter` assumes that the parent sheet exists: the
  core calls it only on a sheet whose children it has just read.

  `Grows`, `SameAt` and `InTree` describe how the core changes the service:
  - `Grows`: the service only gains sheets, child entries and polygons, with
    fresh ids, and a sheet never gains a second child of a name it has;
  - `SameAt`: one sheet reads the same in two states;
  - `InTree`: the sheets reachable from a sheet through child entries, down
    to a given depth.
- `Partitions`: the `Partition` record with `New` and `Clone`.
- `GeoScan`: the scanner (`WorkAsync`, `GetExistingAsync`) and the writer
  (`AddAsync`, `PointsFromSchema`), with lemmas that relate the two.
  - `Geofences` is the reference result of a scan.
  - `IsGeofence` says when a child counts as a partition.
- `GeoCopy`: `Copy`, with its sibling loop written out (`CopyEach`,
  `CopyPartition`, `CopyAdded`) and proved equal to `ForEachAsync` run with
  the copy handler.
- `GeoCopyRerun`: copying twice is copying once, when the source tree and
  the destination tree share no sheet.
  - A copy writes only into the tree below the destination.
  - A second copy reuses every child the first one added or found, and so
    changes nothing.
  - A state that a copy leaves unchanged holds the copied tree at every
    level (`Mirrors`): each source partition has a last same-named
    partition under the destination, and the tree below it mirrors the tree
    below the source partition. So the first copy's result holds the whole
    source tree below the destination, down to the recursion depth.

A JavaScript `null` is `None`. A rejected promise is a `Failure`; it carries
no service state (see `GeoCopy.Copy` under "## Left out"), and each
way to reject has its own `Error`:
- `IncompletePartition`: the rejection at src/geo.ts:217-219.
- `ServiceFailure`: an unknown sheet.
- `NullPartition`: `Copy` reads `.sheet` of the null that `AddAsync` resolved
  to. This happens when the same-named child is not a partition
  (src/geo.ts:240, 170-177, 120).
- `OutOfFuel`: the recursion bound of the model ran out.

## Model

| member | source | states |
|---|---|---|
| FilterCodec.GetPolygonIdFromFilter | src/geo.ts:194-204 | A null filter gives null. A filter gives an id exactly when the pattern matches somewhere in it. The id is the capture group of the match a JavaScript engine reports: leftmost start, then longest capture. |
| FilterCodec.FindMatch | src/geo.ts:198 | The engine's scan over start positions finds a match at the first position where one exists, with the greatest capture end there, and no match at an earlier position. |
| FilterCodec.LastCaptureEnd | src/geo.ts:198 | Backtracking of the greedy `.+`: the largest capture end that lets `',Lat,Long` match after it, and no larger one. |
| FilterCodec.CreateFilter | src/geo.ts:207-209 | The filter is 24 characters longer than the id and holds the id verbatim from position 13. |
| FilterCodec.DecodedIdIsCapture | src/geo.ts:198-203 | Every decoded id is non-empty and free of line terminators, as `.+` demands. |
| FilterCodec.DecodeCanonicalShape | src/geo.ts:198 | The decoder ignores the case of `IsInPolygon` and `',Lat,Long` and accepts any non-line-terminator character before the quote. |
| FilterCodec.FilterRoundTrip | src/geo.ts:194-209 | Decoding the filter built for an id gives that id back if and only if the id is non-empty and free of line terminators. |
| FilterCodec.EmptyIdDecodesToNone | src/geo.ts:198-209 | The filter of the empty id decodes to null. |
| FilterCodec.ShortTextDecodesToNone | src/geo.ts:198-201 | A text shorter than 24 characters decodes to null. |
| FilterCodec.DecodeExamples | src/geo.ts:194-204 | Null gives null, unrelated text gives null, `IsInPolygon('abc',Lat,Long)` and `ISINPOLYGON('abc',lat,long)` both give `abc`. |
| FilterCodec.UpperCaseExample | src/geo.ts:198 | The all-upper-case keyword with a lower-case suffix still decodes. |
| TaskHelper.Work | src/geo.ts:32-49 | From item `idx`, the result holds the outputs collected so far, unchanged, followed by one output per remaining item. |
| TaskHelper.ForEachAsync | src/geo.ts:19-30 | The chain equals the reference run of all items one after another, and a resolved chain has one output per input. |
| TaskHelper.RejectionSticks | src/geo.ts:45-48 | Once an item rejects, the whole chain rejects with that error and no later item changes the outcome. |
| TaskHelper.WorkRunsTheRest | src/geo.ts:32-49 | `Work` from position `idx` completes the run that the first `idx` items started. |
| TaskHelper.PrefixOfSuccess | src/geo.ts:45-47 | When a longer run resolves, every shorter run resolves, and its outputs are a prefix of the longer run's outputs. |
| TaskHelper.ForEachHandlesInOrder | src/geo.ts:19-49 | In a resolved chain, item i is handled in exactly the state left by items 0..i-1, and its result is output i. |
| TaskHelper.ReadOnlyForEach | src/geo.ts:19-49 | With a handler that only reads: the chain resolves if and only if every item resolves, the state is unchanged, and output i is item i's result. |
| Partitions.New | src/geo.ts:75-91 | The record holds exactly the given parent, child sheet, name, polygon id, polygon data and record count. |
| Partitions.Clone | src/geo.ts:62-73 | The clone keeps name and polygon data, is rebound to the new parent, child sheet and polygon id, and its record count is unknown (-1). |
| Partitions.CloneOfNew | src/geo.ts:62-91 | Cloning a scanned record gives the record `New` builds for the new parent, child sheet and polygon id, with the same name and polygon data and an unknown record count. |
| GeoScan.Geofences | src/geo.ts:143-153 | Reference scan: a record is in the result exactly when it is the record of a geofence child, and there are at most as many records as children. |
| GeoScan.WorkAsync | src/geo.ts:161-190 | Rejects exactly when the child sheet is unknown. Otherwise it resolves to a record exactly when the filter decodes to an id with a stored polygon, and that record carries the child's id, name, record count, polygon id and polygon. |
| GeoScan.NonNullOfScans | src/geo.ts:145-149 | Pushing the non-null scan results onto the list gives the reference scan. |
| GeoScan.GetExistingAsync | src/geo.ts:138-154 | Rejects exactly when the sheet or one of its children is unknown. Otherwise it yields the geofence records in enumeration order and drops the other children. |
| GeoScan.ScanSkipsNonPartitions | src/geo.ts:138-190 | Of a child without a filter, a child whose polygon is not stored and a child whose polygon is stored, only the last is scanned as a partition. |
| GeoScan.CreatedFilterDecodes | src/geo.ts:168-177 | A child whose filter was built from a decodable id is a partition exactly when the parent stores that polygon. |
| GeoScan.LastIndexNamed | src/geo.ts:230-236 | The loop with overwrite finds the last child of the name, or reports that no child has it. |
| GeoScan.CollectPoints | src/geo.ts:264-269 | The loop pushes one point per latitude, pairing latitude k with the longitude read at k. |
| GeoScan.PointsFromSchema | src/geo.ts:261-271 | One point per latitude. Point k has latitude k, and longitude k wherever the longitude array has one. |
| GeoScan.PointsSchemaRoundTrip | src/geo.ts:260-271 | `PointsFromSchema` inverts `polygonSchemaFromPoints`, and is inverted by it when both arrays have the same length. |
| GeoScan.AddAsync | src/geo.ts:213-257 | Rejects with "incomplete partition" if and only if the polygon data or a non-empty name is missing. A complete partition added to an unknown sheet rejects with a service failure. |
| GeoScan.AddAsyncReusesLastNamed | src/geo.ts:229-241 | With a same-named child, the result is `WorkAsync` of the last such child (possibly null), and the service is unchanged. |
| GeoScan.CreatePartition | src/geo.ts:244-253 | Stores exactly one new polygon made of the partition's points, adds exactly one childless child sheet with the partition's name and the filter of the new polygon id, and returns the clone bound to them. Nothing else changes. |
| GeoScan.AddAsyncCreates | src/geo.ts:244-253 | Without a same-named child, `AddAsync` resolves to the partition that `CreatePartition` describes. |
| GeoScan.AddAsyncGrows | src/geo.ts:213-257 | `AddAsync` only adds to the service, and afterwards a child of the sheet carries the partition's name. |
| GeoScan.CreatedPartitionIsScannable | src/geo.ts:246-252 | The created child is in the parent's children, and the scanner reads it back as a partition with the same name, the new polygon id and the copied vertex data. |
| GeoScan.AddAsyncTwiceCreatesNothing | src/geo.ts:229-241 | Adding the same partition again resolves and leaves the service as the first addition left it. |
| GeoScan.LastNamedPersists | src/geo.ts:230-236 | After the service grew as the core grows it, the last child of a name is still the last child of that name. |
| GeoScan.WorkAsyncPersists | src/geo.ts:161-190 | A child read as a partition is read as the same partition after the service only gained things. |
| GeoScan.ScanUnchanged | src/geo.ts:138-154 | A sheet that reads the same after the service grew scans to the same partitions. |
| GeoScan.AddAsyncFootprint | src/geo.ts:213-257 | `AddAsync` grows the service as the core grows it and changes no other sheet than the one it adds to. |
| GeoScan.AddAsyncResolvedChild | src/geo.ts:229-253 | When `AddAsync` resolves to a partition, the sheet afterwards has a last child of the partition's name, the scanner reads that child as a partition, and the result is bound to that child. |
| GeoScan.AddAsyncReusesAfterGrowth | src/geo.ts:229-241 | After the service grew, adding the same partition again reuses that child, resolves to its scanned record and changes nothing. |
| GeoCopy.Copy | src/geo.ts:99-125 | Nothing happens when either sheet is null. A copy that resolves has scanned the source successfully. |
| GeoCopy.CopyPartition | src/geo.ts:113-121 | Only a complete partition is copied; an incomplete one rejects with "incomplete partition". |
| GeoCopy.CopyAdded | src/geo.ts:115-121 | A rejection of `AddAsync` passes through, and the copy only continues when `AddAsync` resolved to a partition. |
| GeoCopy.CopyEach | src/geo.ts:113-123 | The sibling loop resolves only when every remaining scanned partition is complete. |
| GeoCopy.CopyEachIsWork | src/geo.ts:113-123 | From any position, the sibling loop is `Work` with the copy handler, outputs dropped. |
| GeoCopy.CopyEachIsForEach | src/geo.ts:111-124 | The sibling loop is `ForEachAsync` over the scanned partitions with the add-then-recurse handler, so partition i is copied in the state partitions 0..i-1 left. |
| GeoCopy.CopyGrows | src/geo.ts:99-125 | A resolved copy only adds to the service, and leaves a child named like every partition of the source scan under the destination. |
| GeoCopy.CopyPartitionGrows | src/geo.ts:113-121 | Copying one partition only adds, and leaves a same-named child under the destination. |
| GeoCopy.CopyAddedGrows | src/geo.ts:115-121 | The recursive step only adds to the service. |
| GeoCopy.CopyEachGrows | src/geo.ts:113-123 | The sibling loop only adds, and names every partition from the current one on under the destination. |
| GeoCopy.CopyFuelIrrelevant | src/geo.ts:99-125 | An outcome other than running out of the bound is the same for every larger bound, so it is the outcome of the unbounded recursion. |
| GeoCopy.CopyAddedFuelIrrelevant | src/geo.ts:115-121 | The same for the step after `AddAsync`. |
| GeoCopy.CopyEachFuelIrrelevant | src/geo.ts:113-123 | The same for the sibling loop. |
| GeoCopyRerun.CopyFootprint | src/geo.ts:99-125 | A resolved copy grows the service as the core grows it, and every sheet outside the tree below the destination reads as before. |
| GeoCopyRerun.CopyPartitionFootprint | src/geo.ts:113-121 | The same for one sibling step: `AddAsync` writes the destination, the recursion the tree below the child it resolved to. |
| GeoCopyRerun.CopyEachFootprint | src/geo.ts:113-123 | The same for the sibling loop. |
| GeoCopyRerun.CopyAgain | src/geo.ts:99-125 | Rerunning a resolved copy on a state grown from its result, in which the source tree reads as before, resolves to that state unchanged. |
| GeoCopyRerun.CopyPartitionAgain | src/geo.ts:113-121 | The same for one sibling step: the second `AddAsync` reuses the child the first one resolved to, and the recursion into it changes nothing. |
| GeoCopyRerun.CopyEachAgain | src/geo.ts:113-123 | The same for the sibling loop. |
| GeoCopyRerun.CopyTwiceChangesNothing | src/geo.ts:99-125 | When the tree below the source and the tree below the destination share no sheet, a second copy from the state the first copy left resolves to that same state. |
| GeoCopyRerun.FixpointMirrors | src/geo.ts:99-125 | A state that a copy resolves to unchanged holds the copied tree: every partition of the source has a last same-named partition under the destination, and recursively below it down to the recursion depth. |
| GeoCopyRerun.CopyMirrorsSourceTree | src/geo.ts:99-125 | After a copy between disjoint trees, the source tree reads as before, and the tree below the destination mirrors it at every level: each partition at each depth has a same-named partition under the matching destination partition, as the recursion at src/geo.ts:120 produces. |

## Left out

- `src/pluginmain.ts` (plugin bootstrap, DOM access, alerts) is not part of this model: it is user-interface glue.
- The `trc-sheet`, `trc-httpshim` and `PolygonHelper` libraries are not part of this model. `SheetService` is an abstract stand-in for them. Its only failure is an unknown sheet; network and authorisation failures are not modelled.
- Promise scheduling is modelled as sequential composition: the code never runs two requests at once.
- Coordinates are opaque values (`Coord`); no floating-point arithmetic or polygon geometry is modelled.
- The orphaned polygon left when sheet creation fails after polygon creation (src/geo.ts:246-249) is not modelled, because sheet creation never fails in the model.
- `PolygonHelper.createPolygon` receives the partition name, but the model does not store a polygon's display name, because nothing in the core reads it back.
- SheetService.CreateChildSheetFromFilter: the new sheet has record count 0, because the rows that a filter would select are not modelled.
- FilterCodec.GetPolygonIdFromFilter: characters are Unicode scalar values, not UTF-16 code units. A character outside the Basic Multilingual Plane between `IsInPolygon` and the quote is one `.` here but two UTF-16 units in JavaScript.
- GeoCopy.Copy: the recursion is bounded by a `fuel` argument and rejects with `OutOfFuel` when it runs out. The recursion in geo.ts is unbounded and may not terminate, for example when the destination is a partition child of the source. `GeoCopy.CopyFuelIrrelevant` shows that every other outcome is the unbounded one.
- GeoCopy.Copy: a rejection drops the service changes already made. `Failure` carries no state, but in geo.ts the partitions, polygons and child sheets that `AddAsync` created before the rejecting step stay in the service. An example is a partition "A" followed by one with an empty name (src/geo.ts:113-121, 217-219). So the model says nothing about what a failed copy leaves behind, and recovery by rerunning a failed copy is not modelled. `GeoCopyRerun.CopyTwiceChangesNothing` covers a rerun after a copy that resolved.
- GeoCopy.CopyGrows: names only the first level of the source tree under the destination. The deeper levels are stated by `GeoCopyRerun.CopyMirrorsSourceTree`, and only for disjoint source and destination trees.
- GeoCopy.CopyGrows: "only adds" and the names it leaves are stated for a state whose id counter is ahead of every id in use (`Fresh`). Every state reached from such a state by the core stays so.
- GeoScan.AddAsyncGrows: likewise stated for a `Fresh` state.
- GeoScan.CreatePartition: "nothing else changes" for the parent's child list and for the other sheets is likewise stated for a `Fresh` state.
- GeoCopyRerun.CopyTwiceChangesNothing: copying twice is proved equal to copying once only when the source tree and the destination tree share no sheet, down to the recursion depth. When they overlap, the first copy may write into the tree it reads, and geo.ts may not terminate.
- GeoCopyRerun.CopyMirrorsSourceTree: stated under the same `Fresh` and disjointness preconditions as `CopyTwiceChangesNothing`. The mirrored partitions are matched by name and are partitions of their parent; that their polygons hold the source partitions' vertices is stated one level at a time by `GeoScan.CreatedPartitionIsScannable`, not by `Mirrors`.
- SheetService.CreatePolygon: a created polygon id is `poly` followed by the counter in decimal. The real polygon service's id format is not part of this model. The model assumes that service-issued ids are non-empty and contain no line terminator. `GeoScan.CreatedPartitionIsScannable` and everything built on it depend on that assumption: for any other id, the filter built from it would not decode back to that id (`FilterCodec.FilterRoundTrip`).

=== FILE: filter_codec.dfy ===
/**
 The filter codec: a geofence partition is a child sheet whose filter
 expression is `IsInPolygon('<id>',Lat,Long)`.  `CreateFilter` writes that
 expression, `GetPolygonIdFromFilter` reads the id back by matching the
 JavaScript regular expression `/IsInPolygon.'(.+)',Lat,Long/i`.

 The regular expression is modelled declaratively (`IsMatch`,
 `FirstLongestMatch`) with the semantics of a JavaScript regex without the
 `u` flag:
 - the match is the one at the LEFTMOST start position;
 - the greedy `.+` keeps the LONGEST capture that still lets `',Lat,Long`
   match after it;
 - `.` matches any character except a line terminator;
 - the `i` flag folds case of ASCII letters only (every letter of the
   pattern is ASCII, and without `u` no non-ASCII character folds onto one).
 */
module FilterCodec {
  import opened Wrappers

  /** The literal `IsInPolygon`, folded to lower case. */
  const Keyword: string := "isinpolygon"

  /** The literal `',Lat,Long`, folded to lower case. */
  const Suffix: string := "',lat,long"

  /** Length of `IsInPolygon` + the `.` + the opening quote: the capture starts here. */
  const CaptureOffset: nat := 13

  predicate IsLineTerminator(c: char) {
    c == '\n' || c == '\r' || c == '\U{2028}' || c == '\U{2029}'
  }

  predicate NoLineTerminator(s: string) {
    forall i :: 0 <= i < |s| ==> !IsLineTerminator(s[i])
  }

  /** ASCII-only case folding. */
  function Lower(c: char): char {
    if 'A' <= c <= 'Z' then (c as int + 32) as char else c
  }

  /** `t[at..]` starts with `lit` (given in lower case), ignoring ASCII case. */
  predicate MatchesIgnoringCase(t: string, at: nat, lit: string) {
    at + |lit| <= |t| && forall i :: 0 <= i < |lit| ==> Lower(t[at + i]) == lit[i]
  }

  /** `IsInPolygon.'` matches at position `s`. */
  predicate HeadAt(t: string, s: nat) {
    && s + CaptureOffset <= |t|
    && MatchesIgnoringCase(t, s, Keyword)
    && !IsLineTerminator(t[s + 11])
    && t[s + 12] == '\''
  }

  /** A capture `t[s + 13 .. e]` that `.+` accepts, followed by `',Lat,Long`. */
  predicate CaptureEndsAt(t: string, s: nat, e: nat) {
    && s + CaptureOffset < e
    && e + |Suffix| <= |t|
    && (forall i :: s + CaptureOffset <= i < e ==> !IsLineTerminator(t[i]))
    && MatchesIgnoringCase(t, e, Suffix)
  }

  /** The whole pattern matches with the capture group spanning `t[s + 13 .. e]`. */
  predicate IsMatch(t: string, s: nat, e: nat) {
    HeadAt(t, s) && CaptureEndsAt(t, s, e)
  }

  /** The match a JavaScript engine reports: leftmost start, then greedy capture. */
  ghost predicate FirstLongestMatch(t: string, s: nat, e: nat) {
    && IsMatch(t, s, e)
    && (forall s': nat, e': nat :: s' < s ==> !IsMatch(t, s', e'))
    && (forall e': nat :: e < e' ==> !IsMatch(t, s, e'))
  }

  lemma FirstLongestMatchIsUnique(t: string, s: nat, e: nat, s2: nat, e2: nat)
    requires FirstLongestMatch(t, s, e) && FirstLongestMatch(t, s2, e2)
    ensures s == s2 && e == e2
  {
  }

  /** Backtracking of the greedy `.+`: the largest end `<= e` that lets the suffix match. */
  function LastCaptureEnd(t: string, s: nat, e: nat): (r: Option<nat>)
    ensures r.Some? ==> r.value <= e && CaptureEndsAt(t, s, r.value)
    ensures forall e': nat :: (if r.Some? then r.value else 0) < e' <= e ==> !CaptureEndsAt(t, s, e')
    decreases e
  {
    if e <= s + CaptureOffset then None
    else if CaptureEndsAt(t, s, e) then Some(e)
    else LastCaptureEnd(t, s, e - 1)
  }

  /** The engine's scan over start positions, from `s` onwards. */
  function FindMatch(t: string, s: nat): (r: Option<(nat, nat)>)
    ensures r.Some? ==> s <= r.value.0 && IsMatch(t, r.value.0, r.value.1)
    ensures r.Some? ==> forall e': nat :: r.value.1 < e' ==> !IsMatch(t, r.value.0, e')
    ensures forall s': nat, e': nat :: s <= s' && (r.Some? ==> s' < r.value.0) ==> !IsMatch(t, s', e')
    decreases |t| - s
  {
    if |t| < s + CaptureOffset + 1 + |Suffix| then None
    else if HeadAt(t, s) then
      match LastCaptureEnd(t, s, |t|)
      case Some(e) => Some((s, e))
      case None => FindMatch(t, s + 1)
    else FindMatch(t, s + 1)
  }

  /** geo.ts `GetPolygonIdFromFilter`: `None` for a null filter and for a filter the pattern does not match. */
  function GetPolygonIdFromFilter(filter: Option<string>): (r: Option<string>)
    ensures filter.None? ==> r.None?
    ensures filter.Some? ==> (r.Some? <==> exists s: nat, e: nat :: IsMatch(filter.value, s, e))
    ensures r.Some? ==> exists s: nat, e: nat :: FirstLongestMatch(filter.value, s, e)
                                    && r.value == filter.value[s + CaptureOffset..e]
  {
    match filter
    case None => None
    case Some(t) =>
      match FindMatch(t, 0)
      case None => None
      case Some((s, e)) =>
        assert FirstLongestMatch(t, s, e);
        Some(t[s + CaptureOffset..e])
  }

  /** geo.ts `CreateFilter`: the id is inserted verbatim, without escaping. */
  function CreateFilter(dataId: string): (f: string)
    ensures |f| == |dataId| + 24
    ensures f[CaptureOffset..CaptureOffset + |dataId|] == dataId
  {
    "IsInPolygon('" + dataId + "',Lat,Long)"
  }

  /** A decoded id is always a capture of `.+`: non-empty and without line terminators. */
  lemma {:induction false} DecodedIdIsCapture(filter: Option<string>)
    requires GetPolygonIdFromFilter(filter).Some?
    ensures GetPolygonIdFromFilter(filter).value != []
    ensures NoLineTerminator(GetPolygonIdFromFilter(filter).value)
  {
    var t := filter.value;
    var id := GetPolygonIdFromFilter(filter).value;
    var s: nat, e: nat :| FirstLongestMatch(t, s, e) && id == t[s + CaptureOffset..e];
    assert |id| == e - (s + CaptureOffset);
    forall i | 0 <= i < |id|
      ensures !IsLineTerminator(id[i])
    {
      assert id[i] == t[s + CaptureOffset + i];
    }
  }

  /** The text of the canonical shape built from its four variable parts. */
  function CanonicalShape(keyword: string, c: char, id: string, suffix: string): string {
    keyword + [c] + "'" + id + suffix + ")"
  }

  lemma CanonicalShapeHead(keyword: string, c: char, id: string, suffix: string)
    requires |keyword| == |Keyword| && MatchesIgnoringCase(keyword, 0, Keyword)
    requires !IsLineTerminator(c)
    ensures HeadAt(CanonicalShape(keyword, c, id, suffix), 0)
  {
    var t := CanonicalShape(keyword, c, id, suffix);
    assert t[11] == c && t[12] == '\'';
    forall i | 0 <= i < |Keyword|
      ensures Lower(t[i]) == Keyword[i]
    {
      assert t[i] == keyword[i];
    }
  }

  lemma CanonicalShapeCapture(keyword: string, c: char, id: string, suffix: string)
    requires |keyword| == |Keyword|
    requires |suffix| == |Suffix| && MatchesIgnoringCase(suffix, 0, Suffix)
    requires id != [] && NoLineTerminator(id)
    ensures CaptureEndsAt(CanonicalShape(keyword, c, id, suffix), 0, CaptureOffset + |id|)
    ensures forall e': nat :: CaptureOffset + |id| < e' ==> !CaptureEndsAt(CanonicalShape(keyword, c, id, suffix), 0, e')
  {
    var t := CanonicalShape(keyword, c, id, suffix);
    var e := CaptureOffset + |id|;
    assert |t| == e + |Suffix| + 1;
    forall i | 0 <= i < |Suffix|
      ensures Lower(t[e + i]) == Suffix[i]
    {
      assert t[e + i] == suffix[i];
    }
    forall i | CaptureOffset <= i < e
      ensures !IsLineTerminator(t[i])
    {
      assert t[i] == id[i - CaptureOffset];
    }
    // a longer capture would need the suffix one position later, on the `,`
    assert t[e + 1] == suffix[1];
    assert Lower(suffix[1]) == Suffix[1] == ',';
    assert Lower(t[e + 1]) != Suffix[0];
    assert !MatchesIgnoringCase(t, e + 1, Suffix);
  }

  /**
   Every text of the canonical shape decodes to its id, whatever the case of
   the letters in `IsInPolygon` and `',Lat,Long` and whichever character
   stands between `IsInPolygon` and the quote.
   */
  lemma {:induction false} DecodeCanonicalShape(keyword: string, c: char, id: string, suffix: string)
    requires |keyword| == |Keyword| && MatchesIgnoringCase(keyword, 0, Keyword)
    requires !IsLineTerminator(c)
    requires |suffix| == |Suffix| && MatchesIgnoringCase(suffix, 0, Suffix)
    requires id != [] && NoLineTerminator(id)
    ensures GetPolygonIdFromFilter(Some(CanonicalShape(keyword, c, id, suffix))) == Some(id)
  {
    var t := CanonicalShape(keyword, c, id, suffix);
    var e := CaptureOffset + |id|;
    CanonicalShapeHead(keyword, c, id, suffix);
    CanonicalShapeCapture(keyword, c, id, suffix);
    assert FirstLongestMatch(t, 0, e);
    assert t[CaptureOffset..e] == id;
    var r := GetPolygonIdFromFilter(Some(t));
    var s2: nat, e2: nat :| FirstLongestMatch(t, s2, e2) && r.value == t[s2 + CaptureOffset..e2];
    FirstLongestMatchIsUnique(t, 0, e, s2, e2);
  }

  /** Round trip: `CreateFilter` then `GetPolygonIdFromFilter` gives the id back
      exactly when the id is non-empty and free of line terminators. */
  lemma {:induction false} FilterRoundTrip(dataId: string)
    ensures GetPolygonIdFromFilter(Some(CreateFilter(dataId))) == Some(dataId)
        <==> dataId != [] && NoLineTerminator(dataId)
  {
    if dataId != [] && NoLineTerminator(dataId) {
      assert CreateFilter(dataId) == CanonicalShape("IsInPolygon", '(', dataId, "',Lat,Long");
      DecodeCanonicalShape("IsInPolygon", '(', dataId, "',Lat,Long");
    } else if GetPolygonIdFromFilter(Some(CreateFilter(dataId))) == Some(dataId) {
      DecodedIdIsCapture(Some(CreateFilter(dataId)));
    }
  }

  /** A text shorter than the shortest possible match is not a geofence filter. */
  lemma ShortTextDecodesToNone(t: string)
    requires |t| < CaptureOffset + 1 + |Suffix|
    ensures GetPolygonIdFromFilter(Some(t)) == None
  {
  }

  /** The decoder on a null filter, unrelated text, the canonical casing and
      an all-upper-case keyword. */
  lemma DecodeExamples()
    ensures GetPolygonIdFromFilter(None) == None
    ensures GetPolygonIdFromFilter(Some("arbitrary text")) == None
    ensures GetPolygonIdFromFilter(Some("IsInPolygon('abc',Lat,Long)")) == Some("abc")
    ensures GetPolygonIdFromFilter(Some("ISINPOLYGON('abc',lat,long)")) == Some("abc")
  {
    ShortTextDecodesToNone("arbitrary text");
    FilterRoundTrip("abc");
    assert CreateFilter("abc") == "IsInPolygon('abc',Lat,Long)";
    UpperCaseExample();
  }

  lemma UpperCaseExample()
    ensures GetPolygonIdFromFilter(Some("ISINPOLYGON('abc',lat,long)")) == Some("abc")
  {
    var k, sfx := "ISINPOLYGON", "',lat,long";
    assert MatchesIgnoringCase(k, 0, Keyword);
    assert MatchesIgnoringCase(sfx, 0, Suffix);
    assert "ISINPOLYGON('abc',lat,long)" == CanonicalShape(k, '(', "abc", sfx);
    DecodeCanonicalShape(k, '(', "abc", sfx);
  }

  /** `.+` needs one character, so the filter of the empty id matches nowhere. */
  lemma EmptyIdDecodesToNone()
    ensures GetPolygonIdFromFilter(Some(CreateFilter(""))) == None
  {
    var t := CreateFilter("");
    assert |t| == 24;
    assert t[14] == ',';
    assert Lower(t[14]) != Suffix[0];
    assert !MatchesIgnoringCase(t, 14, Suffix);
    assert forall s: nat, e: nat :: !IsMatch(t, s, e);
  }
}

=== FILE: geo_copy.dfy ===
/**
 `GeoCopy.Copy` of geo.ts: copies the partition tree of one sheet onto
 another.  It scans the source, then for each source partition in turn adds
 it to the destination and recurses into the (source partition, destination
 partition) pair before the next sibling starts.

 geo.ts does not bound the recursion; it ends on a finite source tree that
 the copy does not grow.  Here a `fuel` argument bounds the depth, and
 running out of it rejects with `OutOfFuel`.
 */
module GeoCopy {
  import opened Wrappers
  import opened SheetService
  import opened Partitions
  import opened GeoScan
  import TaskHelper

  /** Every partition of the source scan has a same-named child under `dest`. */
  ghost predicate NamesCopied(st: Store, parts: seq<Partition>, from: nat, dest: SheetId) {
    forall j :: from <= j < |parts| ==> NamePresent(st, dest, parts[j].name)
  }

  /** geo.ts `Copy`: nothing happens when either sheet is null. */
  function Copy(st: Store, src: Option<SheetId>, dest: Option<SheetId>, fuel: nat): (r: Result<Store, Error>)
    ensures src.None? || dest.None? ==> r == Success(st)
    ensures src.Some? && dest.Some? && r.Success? ==> GetExistingAsync(st, src.value).Success?
    decreases fuel, 1
  {
    if src.None? || dest.None? then Success(st)
    else
      match GetExistingAsync(st, src.value)
      case Failure(e) => Failure(e)
      case Success(partitions) => CopyEach(st, partitions, 0, dest.value, fuel)
  }

  /**
   The handler of the sibling loop of `Copy`: add `partition` to `dest`, then
   copy its subtree into the partition `AddAsync` resolved to.  Only a
   complete partition can be copied.
   */
  function CopyPartition(st: Store, partition: Partition, dest: SheetId, fuel: nat): (r: Result<Store, Error>)
    ensures r.Success? ==> Complete(partition)
    ensures !Complete(partition) ==> r == Failure(IncompletePartition)
    decreases fuel, 0, 1
  {
    CopyAdded(AddAsync(st, dest, partition), partition, fuel)
  }

  /**
   The part of the handler after `AddAsync` settled with `added`: a rejection
   passes through, a null makes the read of its `.sheet` throw, and otherwise
   the subtree of `partition` is copied under the new partition's sheet.
   */
  function CopyAdded(added: Result<(Store, Option<Partition>), Error>, partition: Partition, fuel: nat): (r: Result<Store, Error>)
    ensures r.Success? ==> added.Success? && added.value.1.Some?
    ensures added.Failure? ==> r == Failure(added.error)
    decreases fuel, 0, 0
  {
    match added
    case Failure(e) => Failure(e)
    case Success((st1, newPartition)) =>
      if newPartition.None? then Failure(NullPartition)
      else if fuel == 0 then Failure(OutOfFuel)
      else Copy(st1, partition.sheet, newPartition.value.sheet, fuel - 1)
  }

  /**
   The sibling loop of `Copy` (`ForEachAsync` over the scanned partitions,
   written out because its handler recurses into `Copy`): partition `idx` is
   copied completely before partition `idx + 1` starts, and the loop only
   resolves when every partition from `idx` on was complete.
   */
  function CopyEach(st: Store, parts: seq<Partition>, idx: nat, dest: SheetId, fuel: nat): (r: Result<Store, Error>)
    requires idx <= |parts|
    ensures r.Success? ==> forall j :: idx <= j < |parts| ==> Complete(parts[j])
    decreases fuel, 0, |parts| - idx + 2
  {
    if idx == |parts| then Success(st)
    else
      match CopyPartition(st, parts[idx], dest, fuel)
      case Failure(e) => Failure(e)
      case Success(st1) => CopyEach(st1, parts, idx + 1, dest, fuel)
  }

  // ---------------------------------------------------------------------
  // The sibling loop is `ForEachAsync`

  /** The handler `Copy` gives `ForEachAsync`; it resolves to nothing. */
  function CopyHandler(dest: SheetId, fuel: nat): (Store, Partition) -> Result<(Store, ()), Error> {
    (s: Store, p: Partition) =>
      match CopyPartition(s, p, dest, fuel)
      case Success(s') => Success((s', ()))
      case Failure(e) => Failure(e)
  }

  /** `.then(() => { })`: keeps the outcome and drops the collected outputs. */
  function DropOutputs(r: Result<(Store, seq<()>), Error>): Result<Store, Error>
  {
    match r
    case Success((s, _)) => Success(s)
    case Failure(e) => Failure(e)
  }

  lemma {:induction false} CopyEachIsWork(st: Store, parts: seq<Partition>, idx: nat, dest: SheetId, fuel: nat, outs: seq<()>)
    requires idx <= |parts|
    ensures DropOutputs(TaskHelper.Work(parts, idx, st, outs, CopyHandler(dest, fuel))) == CopyEach(st, parts, idx, dest, fuel)
    decreases |parts| - idx
  {
    if idx < |parts| {
      match CopyPartition(st, parts[idx], dest, fuel)
      case Failure(_) =>
      case Success(st1) =>
        CopyEachIsWork(st1, parts, idx + 1, dest, fuel, outs + [()]);
    }
  }

  /**
   The sibling loop of `Copy` is `ForEachAsync` over the scanned partitions
   with the add-then-recurse handler, so `ForEachHandlesInOrder` applies:
   partition i is added and its subtree copied in the state partitions
   0..i-1 left behind.
   */
  lemma CopyEachIsForEach(st: Store, parts: seq<Partition>, dest: SheetId, fuel: nat)
    ensures DropOutputs(TaskHelper.ForEachAsync(parts, st, CopyHandler(dest, fuel))) == CopyEach(st, parts, 0, dest, fuel)
  {
    CopyEachIsWork(st, parts, 0, dest, fuel, []);
  }

  // ---------------------------------------------------------------------
  // The copy only adds, and names every scanned partition under the destination

  /** Two steps that each only add keep a name the first step made present. */
  lemma ExtensionKeepsName(a: Store, b: Store, c: Store, dest: SheetId, name: Option<string>)
    ensures Extends(a, b) && Extends(b, c) && NamePresent(b, dest, name) ==>
      Extends(a, c) && NamePresent(c, dest, name)
  {
    if Extends(a, b) && Extends(b, c) && NamePresent(b, dest, name) {
      ExtendsTransitive(a, b, c);
      NamePresentPersists(b, c, dest, name);
    }
  }

  /** Copying partition `idx` and then the rest names every partition from `idx` on. */
  lemma NamesCopiedStep(a: Store, b: Store, c: Store, parts: seq<Partition>, idx: nat, dest: SheetId)
    requires idx < |parts|
    ensures Extends(a, b) && NamePresent(b, dest, parts[idx].name) && Extends(b, c) && NamesCopied(c, parts, idx + 1, dest) ==>
      Extends(a, c) && NamesCopied(c, parts, idx, dest)
  {
    if Extends(a, b) && NamePresent(b, dest, parts[idx].name) && Extends(b, c) && NamesCopied(c, parts, idx + 1, dest) {
      ExtensionKeepsName(a, b, c, dest, parts[idx].name);
      assert NamePresent(c, dest, parts[idx].name);
    }
  }

  /**
   A successful copy from a state whose counter is ahead of its ids keeps it
   so, only adds to the service, and leaves a child named like every
   partition of the source scan under the destination.
   */
  lemma {:induction false} CopyGrows(st: Store, src: Option<SheetId>, dest: Option<SheetId>, fuel: nat)
    ensures var r := Copy(st, src, dest, fuel);
      r.Success? && Fresh(st) ==>
        && Fresh(r.value) && Extends(st, r.value)
        && (src.Some? && dest.Some? ==> NamesCopied(r.value, GetExistingAsync(st, src.value).value, 0, dest.value))
    decreases fuel, 1
  {
    if src.Some? && dest.Some? {
      match GetExistingAsync(st, src.value)
      case Failure(_) =>
      case Success(partitions) =>
        CopyEachGrows(st, partitions, 0, dest.value, fuel);
    }
  }

  lemma {:induction false} CopyPartitionGrows(st: Store, partition: Partition, dest: SheetId, fuel: nat)
    ensures var r := CopyPartition(st, partition, dest, fuel);
      r.Success? && Fresh(st) ==> Fresh(r.value) && Extends(st, r.value) && NamePresent(r.value, dest, partition.name)
    decreases fuel, 0, 1
  {
    var added := AddAsync(st, dest, partition);
    AddAsyncGrows(st, dest, partition);
    CopyAddedGrows(added, partition, fuel);
    var r := CopyAdded(added, partition, fuel);
    if r.Success? {
      ExtensionKeepsName(st, added.value.0, r.value, dest, partition.name);
    }
  }

  lemma {:induction false} CopyAddedGrows(added: Result<(Store, Option<Partition>), Error>, partition: Partition, fuel: nat)
    ensures var r := CopyAdded(added, partition, fuel);
      r.Success? && Fresh(added.value.0) ==> Fresh(r.value) && Extends(added.value.0, r.value)
    decreases fuel, 0, 0
  {
    match added
    case Failure(_) =>
    case Success((st1, newPartition)) =>
      if newPartition.Some? && fuel > 0 {
        CopyGrows(st1, partition.sheet, newPartition.value.sheet, fuel - 1);
      }
  }

  lemma {:induction false} CopyEachGrows(st: Store, parts: seq<Partition>, idx: nat, dest: SheetId, fuel: nat)
    requires idx <= |parts|
    ensures var r := CopyEach(st, parts, idx, dest, fuel);
      r.Success? && Fresh(st) ==> Fresh(r.value) && Extends(st, r.value) && NamesCopied(r.value, parts, idx, dest)
    decreases fuel, 0, |parts| - idx + 2
  {
    if idx < |parts| {
      CopyPartitionGrows(st, parts[idx], dest, fuel);
      var one := CopyPartition(st, parts[idx], dest, fuel);
      if one.Success? {
        CopyEachGrows(one.value, parts, idx + 1, dest, fuel);
        var r := CopyEach(one.value, parts, idx + 1, dest, fuel);
        if r.Success? {
          NamesCopiedStep(st, one.value, r.value, parts, idx, dest);
        }
      }
    }
  }

  // ---------------------------------------------------------------------
  // Fuel

  /**
   The fuel bound is only a bound: an outcome other than `OutOfFuel` is the
   same for every larger amount of fuel, so it is the outcome of the
   unbounded recursion of geo.ts.
   */
  lemma {:induction false} CopyFuelIrrelevant(st: Store, src: Option<SheetId>, dest: Option<SheetId>, fuel: nat, more: nat)
    requires fuel <= more
    requires Copy(st, src, dest, fuel) != Failure(OutOfFuel)
    ensures Copy(st, src, dest, more) == Copy(st, src, dest, fuel)
    decreases fuel, 1
  {
    if src.Some? && dest.Some? {
      match GetExistingAsync(st, src.value)
      case Failure(_) =>
      case Success(partitions) =>
        CopyEachFuelIrrelevant(st, partitions, 0, dest.value, fuel, more);
    }
  }

  lemma {:induction false} CopyAddedFuelIrrelevant(added: Result<(Store, Option<Partition>), Error>, partition: Partition, fuel: nat, more: nat)
    requires fuel <= more
    requires CopyAdded(added, partition, fuel) != Failure(OutOfFuel)
    ensures CopyAdded(added, partition, more) == CopyAdded(added, partition, fuel)
    decreases fuel, 0, 1
  {
    if added.Success? && added.value.1.Some? {
      CopySubtreeFuelIrrelevant(added.value.0, partition.sheet, added.value.1.value, fuel, more);
    }
  }

  lemma {:induction false} CopySubtreeFuelIrrelevant(st1: Store, src: Option<SheetId>, q: Partition, fuel: nat, more: nat)
    requires fuel <= more
    requires fuel == 0 || Copy(st1, src, q.sheet, fuel - 1) != Failure(OutOfFuel)
    ensures fuel > 0 ==> Copy(st1, src, q.sheet, more - 1) == Copy(st1, src, q.sheet, fuel - 1)
    decreases fuel, 0, 0
  {
    if fuel > 0 {
      CopyFuelIrrelevant(st1, src, q.sheet, fuel - 1, more - 1);
    }
  }

  lemma {:induction false} CopyEachFuelIrrelevant(st: Store, parts: seq<Partition>, idx: nat, dest: SheetId, fuel: nat, more: nat)
    requires idx <= |parts| && fuel <= more
    requires CopyEach(st, parts, idx, dest, fuel) != Failure(OutOfFuel)
    ensures CopyEach(st, parts, idx, dest, more) == CopyEach(st, parts, idx, dest, fuel)
    decreases fuel, 0, |parts| - idx + 2
  {
    if idx < |parts| {
      var one := CopyPartition(st, parts[idx], dest, fuel);
      CopyAddedFuelIrrelevant(AddAsync(st, dest, parts[idx]), parts[idx], fuel, more);
      if one.Success? {
        CopyEachFuelIrrelevant(one.value, parts, idx + 1, dest, fuel, more);
      }
    }
  }
}

=== FILE: geo_copy_rerun.dfy ===
/**
 Copying a sheet onto another a second time changes nothing, provided the two
 partition trees are disjoint: every partition was added by the first copy,
 so the second one reuses each same-named child (`AddAsync` finds the last
 child of that name, which growth never displaces) and recurses into the
 subtrees the first copy filled.

 The proof has two halves:
 - footprint: a copy into `dest` grows the service the way the core does and
   changes no sheet outside the tree below `dest`;
 - rerun: on a state grown from the first copy's result, in which the sheets
   of the source tree read as they did before the first copy, the copy
   resolves without changing anything.

 A state that a copy leaves unchanged holds the copied tree at every level,
 so the first copy's result mirrors the source tree below the destination
 (`CopyMirrorsSourceTree`).
 */
module GeoCopyRerun {
  import opened Wrappers
  import opened SheetService
  import opened Partitions
  import opened GeoScan
  import opened GeoCopy

  /** Every sheet of the tree of `root` reads the same in `c` as in `a`. */
  ghost predicate TreeReadsSame(a: Store, c: Store, root: SheetId, depth: nat) {
    forall x :: InTree(a, root, depth, x) ==> SameAt(a, c, x)
  }

  /** Every sheet below the counter of `a` and outside the tree of `dest` reads the same in `b`. */
  ghost predicate OnlyWritesBelow(a: Store, b: Store, dest: SheetId, depth: nat) {
    forall x: SheetId :: x < a.next && !InTree(a, dest, depth, x) ==> SameAt(a, b, x)
  }

  /** The recursive part of a sibling step resolves only through the copy into
      the partition `AddAsync` resolved to. */
  lemma CopyAddedUnfold(added: Result<(Store, Option<Partition>), Error>, p: Partition, fuel: nat)
    requires CopyAdded(added, p, fuel).Success?
    ensures && added.Success? && added.value.1.Some? && fuel > 0
            && CopyAdded(added, p, fuel) == Copy(added.value.0, p.sheet, added.value.1.value.sheet, fuel - 1)
  {
  }

  // ---------------------------------------------------------------------
  // Footprint

  /** The writes of one sibling step stay in the tree of `dest`: `AddAsync`
      writes `dest` itself, the recursion the tree of the child `k` of `dest`
      that `AddAsync` resolved to. */
  lemma AddedWritesBelow(st: Store, a1: Store, m: Store, dest: SheetId, k: nat, fuel: nat)
    requires Fresh(st) && fuel > 0 && dest in st.sheets
    requires Grows(st, a1) && Grows(a1, m)
    requires SameExcept(st, a1, dest)
    requires dest in a1.sheets && k < |a1.sheets[dest].children|
    requires OnlyWritesBelow(a1, m, a1.sheets[dest].children[k].id, fuel - 1)
    ensures Grows(st, m) && OnlyWritesBelow(st, m, dest, fuel)
  {
    GrowsTransitive(st, a1, m);
    var cid := a1.sheets[dest].children[k].id;
    forall x: SheetId | x < st.next && !InTree(st, dest, fuel, x)
      ensures SameAt(st, m, x)
    {
      assert !InTree(a1, cid, fuel - 1, x) by {
        InTreeGrows(st, a1, cid, fuel - 1, x);
        if k < |st.sheets[dest].children| {
          assert st.sheets[dest].children[k] == a1.sheets[dest].children[k];
          assert IsChildOf(st, dest, cid);
          if InTree(st, cid, fuel - 1, x) {
            InTreeOfChild(st, dest, fuel, cid, x);
          }
        } else {
          InTreeOfNew(st, cid, fuel - 1, x);
        }
      }
      assert x != dest by {
        assert InTree(st, dest, fuel, dest);
      }
      SameAtTransitive(st, a1, m, x);
    }
  }

  /** Two steps that each write only below `dest` together write only below `dest`. */
  lemma WritesBelowCompose(st: Store, m: Store, b: Store, dest: SheetId, fuel: nat)
    requires Fresh(st) && Grows(st, m) && Grows(m, b)
    requires OnlyWritesBelow(st, m, dest, fuel) && OnlyWritesBelow(m, b, dest, fuel)
    ensures OnlyWritesBelow(st, b, dest, fuel)
  {
    forall x: SheetId | x < st.next && !InTree(st, dest, fuel, x)
      ensures SameAt(st, b, x)
    {
      InTreeGrows(st, m, dest, fuel, x);
      SameAtTransitive(st, m, b, x);
    }
  }

  /** A resolved copy into `dest` grows the service the way the core does and
      changes no sheet outside the tree of `dest`. */
  lemma {:induction false} CopyFootprint(st: Store, src: Option<SheetId>, dest: Option<SheetId>, fuel: nat)
    requires Fresh(st) && Copy(st, src, dest, fuel).Success?
    ensures var r := Copy(st, src, dest, fuel).value;
      Grows(st, r) && (dest.Some? ==> OnlyWritesBelow(st, r, dest.value, fuel))
    decreases fuel, 1
  {
    if src.Some? && dest.Some? {
      CopyEachFootprint(st, GetExistingAsync(st, src.value).value, 0, dest.value, fuel);
    } else {
      GrowsReflexive(st);
    }
  }

  lemma {:induction false} CopyPartitionFootprint(st: Store, p: Partition, dest: SheetId, fuel: nat)
    requires Fresh(st) && CopyPartition(st, p, dest, fuel).Success?
    ensures var m := CopyPartition(st, p, dest, fuel).value;
      Fresh(m) && Grows(st, m) && OnlyWritesBelow(st, m, dest, fuel)
    decreases fuel, 0, 1
  {
    var added := AddAsync(st, dest, p);
    AddAsyncGrows(st, dest, p);
    AddAsyncFootprint(st, dest, p);
    var k := AddAsyncResolvedChild(st, dest, p);
    CopyAddedFootprint(st, added, p, dest, fuel, k);
  }

  /** The recursive part of a sibling step writes only below the child `k` of
      `dest` that `AddAsync` resolved to. */
  lemma {:induction false} CopyAddedFootprint(st: Store, added: Result<(Store, Option<Partition>), Error>, p: Partition,
                                              dest: SheetId, fuel: nat, k: nat)
    requires Fresh(st) && dest in st.sheets && CopyAdded(added, p, fuel).Success?
    requires var a1 := added.value.0;
      && Fresh(a1) && Grows(st, a1) && SameExcept(st, a1, dest)
      && dest in a1.sheets && k < |a1.sheets[dest].children|
      && added.value.1.value.sheet == Some(a1.sheets[dest].children[k].id)
    ensures var m := CopyAdded(added, p, fuel).value;
      Fresh(m) && Grows(st, m) && OnlyWritesBelow(st, m, dest, fuel)
    decreases fuel, 0, 0
  {
    CopyAddedUnfold(added, p, fuel);
    var a1, q := added.value.0, added.value.1.value;
    var m := CopyAdded(added, p, fuel).value;
    assert Fresh(m) by {
      CopyGrows(a1, p.sheet, q.sheet, fuel - 1);
    }
    CopyFootprint(a1, p.sheet, q.sheet, fuel - 1);
    AddedWritesBelow(st, a1, m, dest, k, fuel);
  }

  lemma {:induction false} CopyEachFootprint(st: Store, parts: seq<Partition>, idx: nat, dest: SheetId, fuel: nat)
    requires idx <= |parts| && Fresh(st) && CopyEach(st, parts, idx, dest, fuel).Success?
    ensures var r := CopyEach(st, parts, idx, dest, fuel).value;
      Grows(st, r) && OnlyWritesBelow(st, r, dest, fuel)
    decreases fuel, 0, |parts| - idx + 2
  {
    if idx == |parts| {
      GrowsReflexive(st);
    } else {
      CopyPartitionFootprint(st, parts[idx], dest, fuel);
      var m := CopyPartition(st, parts[idx], dest, fuel).value;
      CopyEachFootprint(m, parts, idx + 1, dest, fuel);
      var b := CopyEach(m, parts, idx + 1, dest, fuel).value;
      GrowsTransitive(st, m, b);
      WritesBelowCompose(st, m, b, dest, fuel);
    }
  }

  // ---------------------------------------------------------------------
  // Rerun

  /** If the sheets of the tree of `src` read the same in `c` as in `a`, so do
      those of the tree of a child of `src`, in every state between the two. */
  lemma ChildTreeUnchanged(a: Store, m: Store, c: Store, src: SheetId, child: SheetId, fuel: nat)
    requires Extends(a, m) && Extends(m, c) && fuel > 0 && IsChildOf(a, src, child)
    requires TreeReadsSame(a, c, src, fuel)
    ensures TreeReadsSame(m, c, child, fuel - 1)
  {
    forall y | InTree(a, child, fuel - 1, y)
      ensures SameAt(a, m, y)
    {
      InTreeOfChild(a, src, fuel, child, y);
      SameAtBetween(a, m, c, y);
    }
    forall x | InTree(m, child, fuel - 1, x)
      ensures SameAt(m, c, x)
    {
      InTreeSame(a, m, child, fuel - 1, x);
      InTreeOfChild(a, src, fuel, child, x);
      SameAtBetween(a, m, c, x);
    }
  }

  /** The same for the tree of `src` itself; its child list is unchanged in `m`. */
  lemma TreeUnchanged(a: Store, m: Store, c: Store, src: SheetId, fuel: nat)
    requires Extends(a, m) && Extends(m, c) && src in a.sheets
    requires TreeReadsSame(a, c, src, fuel)
    ensures src in m.sheets && m.sheets[src] == a.sheets[src]
    ensures TreeReadsSame(m, c, src, fuel)
  {
    SameAtBetween(a, m, c, src);
    forall y | InTree(a, src, fuel, y)
      ensures SameAt(a, m, y)
    {
      SameAtBetween(a, m, c, y);
    }
    forall x | InTree(m, src, fuel, x)
      ensures SameAt(m, c, x)
    {
      InTreeSame(a, m, src, fuel, x);
      SameAtBetween(a, m, c, x);
    }
  }

  /**
   Rerunning a resolved copy on a state `c` grown from its result, in which the
   source tree reads as it did before, resolves to `c` itself.
   */
  lemma {:induction false} CopyAgain(a: Store, src: Option<SheetId>, dest: Option<SheetId>, fuel: nat, c: Store)
    requires Fresh(a) && Copy(a, src, dest, fuel).Success? && Grows(Copy(a, src, dest, fuel).value, c)
    requires src.Some? ==> TreeReadsSame(a, c, src.value, fuel)
    ensures Copy(c, src, dest, fuel) == Success(c)
    decreases fuel, 1
  {
    if src.Some? && dest.Some? {
      var s := src.value;
      var parts := GetExistingAsync(a, s).value;
      CopyFootprint(a, src, dest, fuel);
      GrowsTransitive(a, Copy(a, src, dest, fuel).value, c);
      assert InTree(a, s, fuel, s);
      ScanUnchanged(a, c, s);
      ScanSheetsAreChildren(a, s);
      CopyEachAgain(s, a, parts, 0, dest.value, fuel, c);
    }
  }

  lemma {:induction false} CopyPartitionAgain(src: SheetId, a: Store, p: Partition, dest: SheetId, fuel: nat, c: Store)
    requires Fresh(a) && p.sheet.Some? && IsChildOf(a, src, p.sheet.value)
    requires TreeReadsSame(a, c, src, fuel)
    requires CopyPartition(a, p, dest, fuel).Success? && Grows(CopyPartition(a, p, dest, fuel).value, c)
    ensures CopyPartition(c, p, dest, fuel) == Success(c)
    decreases fuel, 0, 1
  {
    var added := AddAsync(a, dest, p);
    AddAsyncGrows(a, dest, p);
    AddAsyncFootprint(a, dest, p);
    var k := AddAsyncResolvedChild(a, dest, p);
    var a1 := added.value.0;
    var child := a1.sheets[dest].children[k];
    CopyAddedAgain(src, a, added, p, fuel, c);
    // the second `AddAsync` reuses the same child
    AddAsyncReusesAfterGrowth(a1, c, dest, p, k);
    CopyAddedOfResolved(c, PartitionOf(a1, dest, child), p, fuel);
  }

  lemma CopyAddedOfResolved(st: Store, q: Partition, p: Partition, fuel: nat)
    requires fuel > 0
    ensures CopyAdded(Success((st, Some(q))), p, fuel) == Copy(st, p.sheet, q.sheet, fuel - 1)
  {
  }

  /** The recursive part of a sibling step, rerun into the same child, changes nothing. */
  lemma {:induction false} CopyAddedAgain(src: SheetId, a: Store, added: Result<(Store, Option<Partition>), Error>, p: Partition,
                                          fuel: nat, c: Store)
    requires Fresh(a) && p.sheet.Some? && IsChildOf(a, src, p.sheet.value)
    requires TreeReadsSame(a, c, src, fuel)
    requires CopyAdded(added, p, fuel).Success? && Grows(CopyAdded(added, p, fuel).value, c)
    requires Fresh(added.value.0) && Grows(a, added.value.0)
    ensures Grows(added.value.0, c)
    ensures fuel > 0 && Copy(c, p.sheet, added.value.1.value.sheet, fuel - 1) == Success(c)
    decreases fuel, 0, 0
  {
    CopyAddedUnfold(added, p, fuel);
    var a1, q := added.value.0, added.value.1.value;
    CopyFootprint(a1, p.sheet, q.sheet, fuel - 1);
    GrowsTransitive(a1, CopyAdded(added, p, fuel).value, c);
    ChildTreeUnchanged(a, a1, c, src, p.sheet.value, fuel);
    CopyAgain(a1, p.sheet, q.sheet, fuel - 1, c);
  }

  lemma {:induction false} CopyEachAgain(src: SheetId, a: Store, parts: seq<Partition>, idx: nat, dest: SheetId, fuel: nat, c: Store)
    requires idx <= |parts| && Fresh(a) && src in a.sheets
    requires forall j :: idx <= j < |parts| ==> parts[j].sheet.Some? && IsChildOf(a, src, parts[j].sheet.value)
    requires TreeReadsSame(a, c, src, fuel)
    requires CopyEach(a, parts, idx, dest, fuel).Success? && Grows(CopyEach(a, parts, idx, dest, fuel).value, c)
    ensures CopyEach(c, parts, idx, dest, fuel) == Success(c)
    decreases fuel, 0, |parts| - idx + 2
  {
    if idx < |parts| {
      var p := parts[idx];
      CopyPartitionFootprint(a, p, dest, fuel);
      var m := CopyPartition(a, p, dest, fuel).value;
      CopyEachFootprint(m, parts, idx + 1, dest, fuel);
      GrowsTransitive(m, CopyEach(m, parts, idx + 1, dest, fuel).value, c);
      CopyPartitionAgain(src, a, p, dest, fuel, c);
      TreeUnchanged(a, m, c, src, fuel);
      CopyEachAgain(src, m, parts, idx + 1, dest, fuel, c);
    }
  }

  /**
   Copying a sheet onto another twice is copying it once: when the tree below
   the source and the tree below the destination share no sheet, a second
   copy from the state the first one resolved to resolves to that same state.
   */
  lemma CopyTwiceChangesNothing(st: Store, src: SheetId, dest: SheetId, fuel: nat)
    requires Fresh(st) && Copy(st, Some(src), Some(dest), fuel).Success?
    requires forall x :: InTree(st, src, fuel, x) ==> !InTree(st, dest, fuel, x)
    ensures var st1 := Copy(st, Some(src), Some(dest), fuel).value;
      Copy(st1, Some(src), Some(dest), fuel) == Success(st1)
  {
    var st1 := Copy(st, Some(src), Some(dest), fuel).value;
    CopyFootprint(st, Some(src), Some(dest), fuel);
    GrowsReflexive(st1);
    forall x | InTree(st, src, fuel, x)
      ensures SameAt(st, st1, x)
    {
      InTreeBelowNext(st, src, fuel, x);
    }
    CopyAgain(st, Some(src), Some(dest), fuel, st1);
  }

  // ---------------------------------------------------------------------
  // The copied tree

  /**
   In `st`, the sheet `dest` holds a copy of partition `p` to `depth` levels:
   its last child named like `p` is a partition of `dest`, and when `p` is
   bound to a sheet, the tree below that child mirrors the tree below `p`'s
   sheet one level less deep.
   */
  ghost predicate MirroredAt(st: Store, p: Partition, dest: SheetId, depth: nat)
    decreases depth, 0
  {
    && p.name.Some? && dest in st.sheets
    && exists k: nat :: && IsLastNamed(st.sheets[dest].children, p.name.value, k)
                   && st.sheets[dest].children[k].id in st.sheets
                   && IsGeofence(st, dest, st.sheets[dest].children[k])
                   && (depth > 0 && p.sheet.Some? ==> Mirrors(st, p.sheet.value, st.sheets[dest].children[k].id, depth - 1))
  }

  /** In `st`, the tree below `dest` mirrors the partition tree below `src` to
      `depth` levels: `src` scans, and each partition it scans to is
      `MirroredAt` under `dest`. */
  ghost predicate Mirrors(st: Store, src: SheetId, dest: SheetId, depth: nat)
    decreases depth, 1
  {
    && GetExistingAsync(st, src).Success?
    && var parts := GetExistingAsync(st, src).value;
       forall j :: 0 <= j < |parts| ==> MirroredAt(st, parts[j], dest, depth)
  }

  /** A state that a copy resolves to unchanged holds the copied tree. */
  lemma {:induction false} FixpointMirrors(c: Store, src: SheetId, dest: SheetId, fuel: nat)
    requires Fresh(c) && Copy(c, Some(src), Some(dest), fuel) == Success(c)
    ensures Mirrors(c, src, dest, fuel)
    decreases fuel, 2
  {
    CopyEachFixpoint(c, GetExistingAsync(c, src).value, 0, dest, fuel);
  }

  lemma {:induction false} CopyEachFixpoint(c: Store, parts: seq<Partition>, idx: nat, dest: SheetId, fuel: nat)
    requires idx <= |parts| && Fresh(c) && CopyEach(c, parts, idx, dest, fuel) == Success(c)
    ensures forall j :: idx <= j < |parts| ==> MirroredAt(c, parts[j], dest, fuel)
    decreases fuel, 1, |parts| - idx
  {
    if idx < |parts| {
      // the sibling step and the rest of the loop only add, so neither adds anything
      var m := CopyPartition(c, parts[idx], dest, fuel).value;
      CopyPartitionGrows(c, parts[idx], dest, fuel);
      CopyEachGrows(m, parts, idx + 1, dest, fuel);
      ExtendsAntisymmetric(c, m);
      var k := FixpointChild(c, parts[idx], dest, fuel);
      ChildFixpoint(c, parts[idx], dest, fuel, k);
      CopyEachFixpoint(c, parts, idx + 1, dest, fuel);
    }
  }

  /** The recursion below the child `k` that a sibling step which changes
      nothing resolved to: `p` is `MirroredAt` under `dest`. */
  lemma {:induction false} ChildFixpoint(c: Store, p: Partition, dest: SheetId, fuel: nat, k: nat)
    requires Fresh(c) && fuel > 0 && p.name.Some? && dest in c.sheets && IsLastNamed(c.sheets[dest].children, p.name.value, k)
    requires c.sheets[dest].children[k].id in c.sheets && IsGeofence(c, dest, c.sheets[dest].children[k])
    requires Copy(c, p.sheet, Some(c.sheets[dest].children[k].id), fuel - 1) == Success(c)
    ensures MirroredAt(c, p, dest, fuel)
    decreases fuel, 0
  {
    var child := c.sheets[dest].children[k];
    if p.sheet.Some? {
      FixpointMirrors(c, p.sheet.value, child.id, fuel - 1);
      MirroredAtByChild(c, p, dest, fuel, k);
    } else {
      MirroredAtByChild(c, p, dest, fuel, k);
    }
  }

  /** `MirroredAt` through the child at index `k`. */
  lemma MirroredAtByChild(st: Store, p: Partition, dest: SheetId, depth: nat, k: nat)
    requires p.name.Some? && dest in st.sheets && IsLastNamed(st.sheets[dest].children, p.name.value, k)
    requires st.sheets[dest].children[k].id in st.sheets && IsGeofence(st, dest, st.sheets[dest].children[k])
    requires depth > 0 && p.sheet.Some? ==> Mirrors(st, p.sheet.value, st.sheets[dest].children[k].id, depth - 1)
    ensures MirroredAt(st, p, dest, depth)
  {
  }

  /** A sibling step that changes nothing resolved to the last child `k` of
      `dest` named like `p`, a partition of `dest`, and the recursion into it
      changes nothing. */
  lemma FixpointChild(c: Store, p: Partition, dest: SheetId, fuel: nat) returns (k: nat)
    requires Fresh(c) && CopyPartition(c, p, dest, fuel) == Success(c)
    ensures && fuel > 0 && p.name.Some? && dest in c.sheets && IsLastNamed(c.sheets[dest].children, p.name.value, k)
            && c.sheets[dest].children[k].id in c.sheets && IsGeofence(c, dest, c.sheets[dest].children[k])
            && Copy(c, p.sheet, Some(c.sheets[dest].children[k].id), fuel - 1) == Success(c)
  {
    AddAsyncGrows(c, dest, p);
    FixpointAddsNothing(c, AddAsync(c, dest, p), p, fuel);
    k := AddAsyncResolvedChild(c, dest, p);
  }

  /** In a sibling step that changes nothing, `AddAsync` (which settled with
      `added`) changes nothing, and neither does the recursion into the
      partition it resolved to. */
  lemma {:induction false} FixpointAddsNothing(c: Store, added: Result<(Store, Option<Partition>), Error>, p: Partition, fuel: nat)
    requires Fresh(c) && CopyAdded(added, p, fuel) == Success(c)
    requires added.Success? ==> Fresh(added.value.0) && Extends(c, added.value.0)
    ensures && added.Success? && added.value.1.Some? && added.value.0 == c && fuel > 0
            && Copy(c, p.sheet, added.value.1.value.sheet, fuel - 1) == Success(c)
  {
    CopyAddedUnfold(added, p, fuel);
    var a1, q := added.value.0, added.value.1.value;
    CopyGrows(a1, p.sheet, q.sheet, fuel - 1);
    ExtendsAntisymmetric(c, a1);
  }

  /**
   What the first copy leaves: the source tree reads as before, and the tree
   below the destination mirrors it down to the recursion depth, so every
   partition of the source has a same-named partition under the destination,
   every partition of that one a same-named partition under it, and so on.
   */
  lemma CopyMirrorsSourceTree(st: Store, src: SheetId, dest: SheetId, fuel: nat)
    requires Fresh(st) && Copy(st, Some(src), Some(dest), fuel).Success?
    requires forall x :: InTree(st, src, fuel, x) ==> !InTree(st, dest, fuel, x)
    ensures var st1 := Copy(st, Some(src), Some(dest), fuel).value;
      && TreeReadsSame(st, st1, src, fuel)
      && GetExistingAsync(st1, src) == GetExistingAsync(st, src)
      && Mirrors(st1, src, dest, fuel)
  {
    var st1 := Copy(st, Some(src), Some(dest), fuel).value;
    CopyFootprint(st, Some(src), Some(dest), fuel);
    forall x | InTree(st, src, fuel, x)
      ensures SameAt(st, st1, x)
    {
      InTreeBelowNext(st, src, fuel, x);
    }
    assert InTree(st, src, fuel, src);
    ScanUnchanged(st, st1, src);
    CopyGrows(st, Some(src), Some(dest), fuel);
    CopyTwiceChangesNothing(st, src, dest, fuel);
    FixpointMirrors(st1, src, dest, fuel);
  }
}

=== FILE: geo_scan.dfy ===
/**
 `GeoScan` of geo.ts, bound to one sheet: discovers the geofence partitions
 among the sheet's children (`GetExistingAsync`, `WorkAsync`) and makes sure
 a same-named partition exists under the sheet (`AddAsync`).
 */
module GeoScan {
  import opened Wrappers
  import opened SheetService
  import opened Partitions
  import opened FilterCodec
  import TaskHelper

  // ---------------------------------------------------------------------
  // What counts as a geofence partition

  /** `child` is a partition of `sheet`: its filter names a polygon that `sheet` stores. */
  predicate IsGeofence(st: Store, sheet: SheetId, child: ChildEntry) {
    var dataId := GetPolygonIdFromFilter(child.filter);
    dataId.Some? && (sheet, dataId.value) in st.polygons
  }

  /** The record of a geofence child: its id and name, the record count of its
      sheet, the decoded polygon id and that polygon's vertex data. */
  function PartitionOf(st: Store, sheet: SheetId, child: ChildEntry): Partition
    requires child.id in st.sheets && IsGeofence(st, sheet, child)
  {
    var dataId := GetPolygonIdFromFilter(child.filter).value;
    New(sheet, child.id, child.name, st.sheets[child.id].countRecords, dataId, st.polygons[(sheet, dataId)])
  }

  /** Reference result of a scan: the geofence children, in enumeration order. */
  function Geofences(st: Store, sheet: SheetId, children: seq<ChildEntry>): (r: seq<Partition>)
    requires forall i :: 0 <= i < |children| ==> children[i].id in st.sheets
    ensures |r| <= |children|
    ensures forall p :: p in r ==>
      exists i :: 0 <= i < |children| && IsGeofence(st, sheet, children[i]) && p == PartitionOf(st, sheet, children[i])
    ensures forall i :: 0 <= i < |children| && IsGeofence(st, sheet, children[i]) ==> PartitionOf(st, sheet, children[i]) in r
    decreases |children|
  {
    if children == [] then []
    else
      var rest := Geofences(st, sheet, children[1..]);
      assert forall i :: 1 <= i < |children| ==> children[i] == children[1..][i - 1];
      if IsGeofence(st, sheet, children[0]) then [PartitionOf(st, sheet, children[0])] + rest else rest
  }

  /** Every child of `sheet` is a sheet the service holds. */
  predicate ChildrenResolvable(st: Store, sheet: SheetId) {
    sheet in st.sheets && forall i :: 0 <= i < |st.sheets[sheet].children| ==> st.sheets[sheet].children[i].id in st.sheets
  }

  // ---------------------------------------------------------------------
  // Scanning

  /** geo.ts `WorkAsync`: the record of one child, or null when the child is not a partition. */
  function WorkAsync(st: Store, sheet: SheetId, child: ChildEntry): (r: Result<Option<Partition>, Error>)
    ensures r.Success? <==> child.id in st.sheets
    ensures r.Success? ==> (r.value.Some? <==> IsGeofence(st, sheet, child))
    ensures r.Success? && r.value.Some? ==> r.value.value == PartitionOf(st, sheet, child)
  {
    match GetCountRecords(st, child.id)
    case Failure(e) => Failure(e)
    case Success(count) =>
      match GetPolygonIdFromFilter(child.filter)
      case None => Success(None)
      case Some(dataId) =>
        match GetPolygonById(st, sheet, dataId)
        case None => Success(None)
        case Some(poly) => Success(Some(New(sheet, child.id, child.name, count, dataId, poly)))
  }

  /** The records the scan pushes onto its list: the non-null results. */
  function NonNull<T>(xs: seq<Option<T>>): (r: seq<T>)
    ensures |r| <= |xs|
    decreases |xs|
  {
    if xs == [] then [] else (if xs[0].Some? then [xs[0].value] else []) + NonNull(xs[1..])
  }

  lemma {:induction false} NonNullOfScans(st: Store, sheet: SheetId, children: seq<ChildEntry>, outs: seq<Option<Partition>>)
    requires forall i :: 0 <= i < |children| ==> children[i].id in st.sheets
    requires |outs| == |children|
    requires forall i :: 0 <= i < |children| ==> outs[i] == WorkAsync(st, sheet, children[i]).value
    ensures NonNull(outs) == Geofences(st, sheet, children)
    decreases |children|
  {
    if children != [] {
      assert forall i :: 0 <= i < |children| - 1 ==> children[1..][i] == children[i + 1] && outs[1..][i] == outs[i + 1];
      NonNullOfScans(st, sheet, children[1..], outs[1..]);
    }
  }

  /** The handler the scan gives `ForEachAsync`: reads the service, changes nothing. */
  function ScanHandler(sheet: SheetId): (Store, ChildEntry) -> Result<(Store, Option<Partition>), Error> {
    (s: Store, c: ChildEntry) => TaskHelper.ReadOnly(s, WorkAsync(s, sheet, c))
  }

  /**
   geo.ts `GetExistingAsync`: the geofence partitions among the sheet's
   children, in enumeration order; the other children are dropped without
   error.  It rejects only when the service holds the sheet or one of its
   children no longer.
   */
  function GetExistingAsync(st: Store, sheet: SheetId): (r: Result<seq<Partition>, Error>)
    ensures r.Success? <==> ChildrenResolvable(st, sheet)
    ensures r.Success? ==> r.value == Geofences(st, sheet, st.sheets[sheet].children)
  {
    match GetChildren(st, sheet)
    case Failure(e) => Failure(e)
    case Success(children) =>
      var f := (c: ChildEntry) => WorkAsync(st, sheet, c);
      TaskHelper.ReadOnlyForEach(children, st, ScanHandler(sheet), f);
      match TaskHelper.ForEachAsync(children, st, ScanHandler(sheet))
      case Failure(e) => Failure(e)
      case Success((_, found)) =>
        NonNullOfScans(st, sheet, children, found);
        Success(NonNull(found))
  }

  // ---------------------------------------------------------------------
  // Writing

  /** Linear scan with overwrite over the children: the index of the LAST one
      named `name`, `found` being the last match among the first `i`. */
  function LastIndexNamed(children: seq<ChildEntry>, name: string, i: nat, found: Option<nat>): (r: Option<nat>)
    requires i <= |children|
    requires found.Some? ==> found.value < i && children[found.value].name == name
    requires forall j :: (if found.Some? then found.value + 1 else 0) <= j < i ==> children[j].name != name
    ensures r.Some? ==> IsLastNamed(children, name, r.value)
    ensures r.None? ==> forall j :: 0 <= j < |children| ==> children[j].name != name
    decreases |children| - i
  {
    if i == |children| then found
    else if children[i].name == name then LastIndexNamed(children, name, i + 1, Some(i))
    else LastIndexNamed(children, name, i + 1, found)
  }

  ghost predicate IsLastNamed(children: seq<ChildEntry>, name: string, i: nat) {
    i < |children| && children[i].name == name && forall j :: i < j < |children| ==> children[j].name != name
  }

  /** The value `Point` k reads for its longitude: `undefined` past the end of the array. */
  function LongAt(poly: Polygon, k: nat): Coord {
    if k < |poly.long| then poly.long[k] else Undefined
  }

  /** The `for` loop of `PointsFromSchema`, from index `i` with the points pushed so far. */
  function CollectPoints(poly: Polygon, i: nat, pts: seq<Point>): (r: seq<Point>)
    requires i <= |poly.lat| && |pts| == i
    requires forall k :: 0 <= k < i ==> pts[k] == Point(poly.lat[k], LongAt(poly, k))
    ensures |r| == |poly.lat|
    ensures forall k :: 0 <= k < |r| ==> r[k] == Point(poly.lat[k], LongAt(poly, k))
    decreases |poly.lat| - i
  {
    if i == |poly.lat| then pts
    else CollectPoints(poly, i + 1, pts + [Point(poly.lat[i], LongAt(poly, i))])
  }

  /** geo.ts `PointsFromSchema`: one point per latitude, zipped with the longitude at the same index. */
  function PointsFromSchema(poly: Polygon): (pts: seq<Point>)
    ensures |pts| == |poly.lat|
    ensures forall k :: 0 <= k < |pts| ==> pts[k].lat == poly.lat[k]
    ensures forall k :: 0 <= k < |pts| && k < |poly.long| ==> pts[k].long == poly.long[k]
  {
    CollectPoints(poly, 0, [])
  }

  /** `PointsFromSchema` inverts `polygonSchemaFromPoints`, and is inverted by it on
      polygons whose two arrays have the same length. */
  lemma PointsSchemaRoundTrip(poly: Polygon, pts: seq<Point>)
    ensures PointsFromSchema(SchemaFromPoints(pts)) == pts
    ensures |poly.lat| == |poly.long| ==> SchemaFromPoints(PointsFromSchema(poly)) == poly
  {
  }

  /** The partition carries everything `AddAsync` needs: polygon data and a non-empty name. */
  predicate Complete(p: Partition) {
    p.polyData.Some? && p.name.Some? && p.name.value != ""
  }

  /**
   `st'` is `st` after `AddAsync` created partition `q` of `sheet` for `p`:
   one polygon holding `p`'s vertices, under a decodable id, and one childless
   child sheet named like `p` whose filter names that polygon.
   */
  ghost predicate CreatedFor(st: Store, st': Store, sheet: SheetId, p: Partition, q: Partition)
    requires Complete(p) && sheet in st.sheets
  {
    && q.name == p.name && q.polyData == p.polyData && q.parentSheet == sheet
    && q.countRecords == UnknownCount && q.sheet.Some?
    && q.dataId != [] && NoLineTerminator(q.dataId)
    && st'.polygons == st.polygons[(sheet, q.dataId) := SchemaFromPoints(PointsFromSchema(p.polyData.value))]
    && st'.sheets.Keys == st.sheets.Keys + {q.sheet.value}
    && st'.sheets[q.sheet.value] == Sheet([], 0)
    && (Fresh(st) ==>
         && (sheet, q.dataId) !in st.polygons
         && q.sheet.value !in st.sheets && q.sheet.value >= st.next
         && st'.sheets[sheet] == Sheet(st.sheets[sheet].children + [ChildEntry(q.sheet.value, p.name.value, Some(CreateFilter(q.dataId)))],
                                       st.sheets[sheet].countRecords)
         && forall s :: s in st.sheets && s != sheet ==> st'.sheets[s] == st.sheets[s])
  }

  /**
   geo.ts `AddAsync`: rejects an incomplete partition; reuses the last child
   of the same name (resolving it through `WorkAsync`, possibly to null) and
   then changes nothing; otherwise creates one polygon and one child sheet and
   resolves to a clone of `p` bound to them.  The lemmas below state the
   reuse, the creation and the growth of the service.
   */
  function AddAsync(st: Store, sheet: SheetId, p: Partition): (r: Result<(Store, Option<Partition>), Error>)
    ensures r == Failure(IncompletePartition) <==> !Complete(p)
    ensures Complete(p) && sheet !in st.sheets ==> r == Failure(ServiceFailure)
  {
    if !Complete(p) then Failure(IncompletePartition)
    else
      var name := p.name.value;
      match GetChildren(st, sheet)
      case Failure(e) => Failure(e)
      case Success(children) =>
        match LastIndexNamed(children, name, 0, None)
        case Some(i) => TaskHelper.ReadOnly(st, WorkAsync(st, sheet, children[i]))
        case None =>
          var (st', q) := CreatePartition(st, sheet, p);
          Success((st', Some(q)))
  }

  /** With a child of the same name, `AddAsync` resolves to what `WorkAsync`
      makes of the LAST such child, and changes nothing. */
  lemma AddAsyncReusesLastNamed(st: Store, sheet: SheetId, p: Partition, i: nat)
    requires Complete(p) && sheet in st.sheets && IsLastNamed(st.sheets[sheet].children, p.name.value, i)
    ensures AddAsync(st, sheet, p) == TaskHelper.ReadOnly(st, WorkAsync(st, sheet, st.sheets[sheet].children[i]))
  {
    var found := LastIndexNamed(st.sheets[sheet].children, p.name.value, 0, None);
    assert found.Some?;
  }

  /** Without a child of the same name, `AddAsync` creates the partition. */
  lemma AddAsyncCreates(st: Store, sheet: SheetId, p: Partition)
    requires Complete(p) && sheet in st.sheets
    requires forall i :: 0 <= i < |st.sheets[sheet].children| ==> st.sheets[sheet].children[i].name != p.name.value
    ensures var r := AddAsync(st, sheet, p);
      r.Success? && r.value.1.Some? && CreatedFor(st, r.value.0, sheet, p, r.value.1.value)
  {
    var found := LastIndexNamed(st.sheets[sheet].children, p.name.value, 0, None);
    assert found.None?;
  }

  /** `AddAsync` only adds to the service, keeps the counter ahead of the ids,
      and afterwards a child of the sheet carries the partition's name. */
  lemma AddAsyncGrows(st: Store, sheet: SheetId, p: Partition)
    ensures var r := AddAsync(st, sheet, p);
      r.Success? && Fresh(st) ==> Fresh(r.value.0) && Extends(st, r.value.0) && NamePresent(r.value.0, sheet, p.name)
  {
    if Complete(p) && sheet in st.sheets {
      var children := st.sheets[sheet].children;
      var found := LastIndexNamed(children, p.name.value, 0, None);
      if found.Some? {
        assert children[found.value].name == p.name.value;
      }
    }
  }

  /**
   The creating branch of `AddAsync`: stores the partition's vertices as a new
   polygon of `sheet`, creates a child sheet named like the partition whose
   filter selects that polygon, and clones the partition onto the two.
   */
  function CreatePartition(st: Store, sheet: SheetId, p: Partition): (r: (Store, Partition))
    requires Complete(p) && sheet in st.sheets
    ensures CreatedFor(st, r.0, sheet, p, r.1)
    ensures Fresh(st) ==> Fresh(r.0) && Extends(st, r.0) && NamePresent(r.0, sheet, p.name)
  {
    var name := p.name.value;
    var children := st.sheets[sheet].children;
    var vertices := PointsFromSchema(p.polyData.value);
    var (st1, dataId) := CreatePolygon(st, sheet, name, vertices);
    var filter := CreateFilter(dataId);
    var (st2, childId) := CreateChildSheetFromFilter(st1, sheet, name, filter);
    assert Fresh(st) ==> st2.sheets[sheet].children[|children|] == ChildEntry(childId, name, Some(filter));
    (st2, Clone(p, sheet, childId, dataId))
  }

  // ---------------------------------------------------------------------
  // Writer and scanner agree

  /**
   The partition `AddAsync` creates is one the scanner recognises: the new
   child's filter decodes to the new polygon id, that polygon is stored under
   the parent, and the scanned record has the partition's name and the
   vertex data the source partition carried.
   */
  lemma {:induction false} CreatedPartitionIsScannable(st: Store, sheet: SheetId, p: Partition)
    requires Fresh(st) && Complete(p) && sheet in st.sheets
    requires forall i :: 0 <= i < |st.sheets[sheet].children| ==> st.sheets[sheet].children[i].name != p.name.value
    ensures var r := AddAsync(st, sheet, p);
      var st', q := r.value.0, r.value.1.value;
      var child := ChildEntry(q.sheet.value, p.name.value, Some(CreateFilter(q.dataId)));
      && child in st'.sheets[sheet].children
      && WorkAsync(st', sheet, child)
         == Success(Some(New(sheet, q.sheet.value, p.name.value, 0, q.dataId, SchemaFromPoints(PointsFromSchema(p.polyData.value)))))
  {
    AddAsyncCreates(st, sheet, p);
    var r := AddAsync(st, sheet, p);
    var st', q := r.value.0, r.value.1.value;
    var child := ChildEntry(q.sheet.value, p.name.value, Some(CreateFilter(q.dataId)));
    FilterRoundTrip(q.dataId);
    assert st'.sheets[sheet].children[|st.sheets[sheet].children|] == child;
  }

  /**
   Adding the same partition a second time creates nothing: the name is now
   taken, so the second `AddAsync` reuses the child and leaves the service
   as the first one left it.
   */
  lemma {:induction false} AddAsyncTwiceCreatesNothing(st: Store, sheet: SheetId, p: Partition)
    requires Fresh(st)
    requires AddAsync(st, sheet, p).Success?
    ensures var st1 := AddAsync(st, sheet, p).value.0;
      AddAsync(st1, sheet, p).Success? && AddAsync(st1, sheet, p).value.0 == st1
  {
    var st1 := AddAsync(st, sheet, p).value.0;
    var name := p.name.value;
    var children := st.sheets[sheet].children;
    var found := LastIndexNamed(children, name, 0, None);
    if found.Some? {
      AddAsyncReusesLastNamed(st, sheet, p, found.value);
    } else {
      AddAsyncCreates(st, sheet, p);
      var q := AddAsync(st, sheet, p).value.1.value;
      var cs := st1.sheets[sheet].children;
      assert cs == children + [ChildEntry(q.sheet.value, name, Some(CreateFilter(q.dataId)))];
      assert IsLastNamed(cs, name, |children|);
      AddAsyncReusesLastNamed(st1, sheet, p, |children|);
    }
  }

  /** A child whose filter was made by `CreateFilter` from a decodable id is a
      partition exactly when the sheet stores the polygon of that id. */
  lemma CreatedFilterDecodes(st: Store, sheet: SheetId, child: ChildEntry, id: string)
    requires child.filter == Some(CreateFilter(id)) && id != [] && NoLineTerminator(id)
    ensures GetPolygonIdFromFilter(child.filter) == Some(id)
    ensures IsGeofence(st, sheet, child) <==> (sheet, id) in st.polygons
  {
    FilterRoundTrip(id);
  }

  /** One step of the reference scan: the first child, then the rest. */
  lemma GeofencesStep(st: Store, sheet: SheetId, children: seq<ChildEntry>)
    requires children != [] && forall i :: 0 <= i < |children| ==> children[i].id in st.sheets
    ensures Geofences(st, sheet, children)
         == (if IsGeofence(st, sheet, children[0]) then [PartitionOf(st, sheet, children[0])] else [])
            + Geofences(st, sheet, children[1..])
  {
  }

  /**
   The skip behaviour of the scan: of a child without filter, a child whose
   polygon is not stored and a child whose polygon is stored, only the last
   becomes a partition.
   */
  lemma ScanSkipsNonPartitions(st: Store, sheet: SheetId, a: ChildEntry, b: ChildEntry, c: ChildEntry, x: string, y: string)
    requires sheet in st.sheets && st.sheets[sheet].children == [a, b, c]
    requires a.id in st.sheets && b.id in st.sheets && c.id in st.sheets
    requires x != [] && NoLineTerminator(x) && y != [] && NoLineTerminator(y)
    requires a.filter == None
    requires b.filter == Some(CreateFilter(x)) && (sheet, x) !in st.polygons
    requires c.filter == Some(CreateFilter(y)) && (sheet, y) in st.polygons
    ensures !IsGeofence(st, sheet, a) && !IsGeofence(st, sheet, b) && IsGeofence(st, sheet, c)
    ensures GetExistingAsync(st, sheet) == Success([PartitionOf(st, sheet, c)])
  {
    assert !IsGeofence(st, sheet, a) && !IsGeofence(st, sheet, b) && IsGeofence(st, sheet, c) by {
      CreatedFilterDecodes(st, sheet, b, x);
      CreatedFilterDecodes(st, sheet, c, y);
    }
    GeofencesOfLastOnly(st, sheet, a, b, c);
    assert ChildrenResolvable(st, sheet);
  }

  lemma GeofencesOfLastOnly(st: Store, sheet: SheetId, a: ChildEntry, b: ChildEntry, c: ChildEntry)
    requires a.id in st.sheets && b.id in st.sheets && c.id in st.sheets
    requires !IsGeofence(st, sheet, a) && !IsGeofence(st, sheet, b) && IsGeofence(st, sheet, c)
    ensures Geofences(st, sheet, [a, b, c]) == [PartitionOf(st, sheet, c)]
  {
    var cs := [a, b, c];
    assert cs[1..] == [b, c] && [b, c][1..] == [c] && [c][1..] == [];
    GeofencesStep(st, sheet, [c]);
    GeofencesStep(st, sheet, [b, c]);
    GeofencesStep(st, sheet, cs);
  }

  // ---------------------------------------------------------------------
  // What a second scan and a second `AddAsync` see

  /** Growth never appends a child under a name the sheet already has, so the
      last child of that name stays the last one. */
  lemma LastNamedPersists(a: Store, b: Store, sheet: SheetId, name: string, k: nat)
    requires Grows(a, b) && sheet in a.sheets && IsLastNamed(a.sheets[sheet].children, name, k)
    ensures IsLastNamed(b.sheets[sheet].children, name, k)
  {
    var x, y := a.sheets[sheet].children, b.sheets[sheet].children;
    assert x == y[..|x|];
    forall j | k < j < |y|
      ensures y[j].name != name
    {
      if j < |x| {
        assert y[j] == x[j];
      } else {
        assert NameAbsent(x, y[j].name);
      }
    }
  }

  /** A child read as a partition is read as the same partition after the service grew. */
  lemma WorkAsyncPersists(a: Store, b: Store, sheet: SheetId, child: ChildEntry)
    requires Extends(a, b) && WorkAsync(a, sheet, child).Success? && WorkAsync(a, sheet, child).value.Some?
    ensures WorkAsync(b, sheet, child) == WorkAsync(a, sheet, child)
  {
  }

  lemma {:induction false} GeofencesUnchanged(a: Store, b: Store, sheet: SheetId, children: seq<ChildEntry>)
    requires Extends(a, b) && forall i :: 0 <= i < |children| ==> children[i].id in a.sheets
    requires forall id :: (sheet, id) in b.polygons ==> (sheet, id) in a.polygons
    ensures Geofences(b, sheet, children) == Geofences(a, sheet, children)
    decreases |children|
  {
    if children != [] {
      GeofencesStep(a, sheet, children);
      GeofencesStep(b, sheet, children);
      GeofencesUnchanged(a, b, sheet, children[1..]);
    }
  }

  /** A sheet that reads the same after the service grew scans to the same partitions. */
  lemma ScanUnchanged(a: Store, b: Store, sheet: SheetId)
    requires Extends(a, b) && SameAt(a, b, sheet) && GetExistingAsync(a, sheet).Success?
    ensures GetExistingAsync(b, sheet) == GetExistingAsync(a, sheet)
  {
    GeofencesUnchanged(a, b, sheet, a.sheets[sheet].children);
  }

  /** Every scanned partition is bound to a child of the scanned sheet. */
  lemma ScanSheetsAreChildren(st: Store, sheet: SheetId)
    requires GetExistingAsync(st, sheet).Success?
    ensures var parts := GetExistingAsync(st, sheet).value;
      forall j :: 0 <= j < |parts| ==> parts[j].sheet.Some? && IsChildOf(st, sheet, parts[j].sheet.value)
  {
    var parts := GetExistingAsync(st, sheet).value;
    var cs := st.sheets[sheet].children;
    forall j | 0 <= j < |parts|
      ensures parts[j].sheet.Some? && IsChildOf(st, sheet, parts[j].sheet.value)
    {
      assert parts[j] in parts;
      var i :| 0 <= i < |cs| && IsGeofence(st, sheet, cs[i]) && parts[j] == PartitionOf(st, sheet, cs[i]);
    }
  }

  /** `AddAsync` grows the service the way the core does, and changes no sheet
      other than `sheet` (nor any polygon of one). */
  lemma AddAsyncFootprint(st: Store, sheet: SheetId, p: Partition)
    requires Fresh(st) && AddAsync(st, sheet, p).Success?
    ensures var st' := AddAsync(st, sheet, p).value.0;
      Grows(st, st') && SameExcept(st, st', sheet)
  {
    var children := st.sheets[sheet].children;
    var found := LastIndexNamed(children, p.name.value, 0, None);
    if found.Some? {
      AddAsyncReusesLastNamed(st, sheet, p, found.value);
      GrowsReflexive(st);
    } else {
      AddAsyncCreates(st, sheet, p);
      AddAsyncGrows(st, sheet, p);
      var r := AddAsync(st, sheet, p);
      CreatedGrows(st, r.value.0, sheet, p, r.value.1.value);
    }
  }

  /** The creating branch grows the service the way the core does and changes
      no sheet other than `sheet`. */
  lemma CreatedGrows(st: Store, st': Store, sheet: SheetId, p: Partition, q: Partition)
    requires Fresh(st) && Complete(p) && sheet in st.sheets && Extends(st, st')
    requires CreatedFor(st, st', sheet, p, q) && NameAbsent(st.sheets[sheet].children, p.name.value)
    ensures Grows(st, st') && SameExcept(st, st', sheet)
  {
    var children := st.sheets[sheet].children;
    assert st'.sheets[sheet].children == children + [ChildEntry(q.sheet.value, p.name.value, Some(CreateFilter(q.dataId)))];
  }

  /**
   When `AddAsync` resolves to a partition `q`, the sheet it leaves has a last
   child named like `p`, at index `k`: a partition of the sheet, whose sheet is
   the one `q` is bound to.
   */
  lemma AddAsyncResolvedChild(st: Store, sheet: SheetId, p: Partition) returns (k: nat)
    requires Fresh(st) && AddAsync(st, sheet, p).Success? && AddAsync(st, sheet, p).value.1.Some?
    ensures var st', q := AddAsync(st, sheet, p).value.0, AddAsync(st, sheet, p).value.1.value;
      && Complete(p) && sheet in st'.sheets && IsLastNamed(st'.sheets[sheet].children, p.name.value, k)
      && st'.sheets[sheet].children[k].id in st'.sheets && IsGeofence(st', sheet, st'.sheets[sheet].children[k])
      && q.sheet == Some(st'.sheets[sheet].children[k].id)
  {
    var children := st.sheets[sheet].children;
    var found := LastIndexNamed(children, p.name.value, 0, None);
    if found.Some? {
      k := found.value;
      AddAsyncReusesLastNamed(st, sheet, p, k);
    } else {
      k := |children|;
      CreatedPartitionIsScannable(st, sheet, p);
      AddAsyncCreates(st, sheet, p);
    }
  }

  /** After the service grew, `AddAsync` of the same partition reuses the
      child it resolved to and changes nothing. */
  lemma AddAsyncReusesAfterGrowth(a: Store, c: Store, sheet: SheetId, p: Partition, k: nat)
    requires Grows(a, c) && Complete(p) && sheet in a.sheets && IsLastNamed(a.sheets[sheet].children, p.name.value, k)
    requires a.sheets[sheet].children[k].id in a.sheets && IsGeofence(a, sheet, a.sheets[sheet].children[k])
    ensures var child := a.sheets[sheet].children[k];
      AddAsync(c, sheet, p) == Success((c, Some(PartitionOf(a, sheet, child))))
  {
    var child := a.sheets[sheet].children[k];
    LastNamedPersists(a, c, sheet, p.name.value, k);
    assert c.sheets[sheet].children[k] == child;
    WorkAsyncPersists(a, c, sheet, child);
    AddAsyncReusesLastNamed(c, sheet, p, k);
  }
}

=== FILE: partitions.dfy ===
/**
 The `Partition` record of geo.ts: a geofence partition of `parentSheet`,
 whose contents are the child sheet `sheet` (null while not yet created),
 defined by the polygon `dataId` of the parent with vertex data `polyData`.
 */
module Partitions {
  import opened Wrappers
  import opened SheetService

  /** `countRecords` of a record that was derived rather than scanned. */
  const UnknownCount: int := -1

  datatype Partition = Partition(
    parentSheet: SheetId,
    sheet: Option<SheetId>,
    name: Option<string>,
    dataId: string,
    polyData: Option<Polygon>,
    countRecords: int)

  /** `Partition.New`: the record of a scanned child. */
  function New(parentSheet: SheetId, sheet: SheetId, name: string, existingCount: int, dataId: string, polyData: Polygon): (r: Partition)
    ensures r.parentSheet == parentSheet && r.sheet == Some(sheet) && r.name == Some(name)
    ensures r.dataId == dataId && r.polyData == Some(polyData) && r.countRecords == existingCount
  {
    Partition(parentSheet, Some(sheet), Some(name), dataId, Some(polyData), existingCount)
  }

  /** `Partition.Clone`: the same partition rebound to another parent, child
      sheet and polygon id; its record count becomes unknown. */
  function Clone(p: Partition, newParentSheet: SheetId, newSheetId: SheetId, newDataId: string): (r: Partition)
    ensures r.name == p.name && r.polyData == p.polyData
    ensures r.parentSheet == newParentSheet && r.sheet == Some(newSheetId) && r.dataId == newDataId
    ensures r.countRecords == UnknownCount
  {
    Partition(newParentSheet, Some(newSheetId), p.name, newDataId, p.polyData, UnknownCount)
  }

  /** Cloning a scanned record gives the record `New` would make for the new
      parent, sheet and polygon id, with the same name and vertex data and an
      unknown record count. */
  lemma CloneOfNew(parentSheet: SheetId, sheet: SheetId, name: string, existingCount: int, dataId: string, polyData: Polygon,
                   newParentSheet: SheetId, newSheetId: SheetId, newDataId: string)
    ensures Clone(New(parentSheet, sheet, name, existingCount, dataId, polyData), newParentSheet, newSheetId, newDataId)
         == New(newParentSheet, newSheetId, name, UnknownCount, newDataId, polyData)
  {
  }
}

=== FILE: sheet_service.dfy ===
/**
 The hosted sheet service and its polygon store, as an explicit state that
 the core threads through its operations:
 - every sheet holds its child entries `{Id, Name, Filter}` in enumeration
   order and its record count;
 - polygons are stored per owning sheet under a polygon id;
 - one counter supplies fresh ids for created sheets and polygons.
 Reading the children or the record count of a sheet the service does not
 hold rejects (`ServiceFailure`).
 */
module SheetService {
  import opened Wrappers
  import FilterCodec

  type SheetId = nat

  /** A JavaScript value read from a coordinate array: a number, or `undefined`
      when read past the end.  Coordinates are never computed with. */
  datatype Coord = Number(value: real) | Undefined

  /** `IGeoPoint` */
  datatype Point = Point(lat: Coord, long: Coord)

  /** `IPolygonSchema`: parallel latitude and longitude arrays. */
  datatype Polygon = Polygon(lat: seq<Coord>, long: seq<Coord>)

  /** `IGetChildrenResultEntry`: a child sheet as its parent enumerates it. */
  datatype ChildEntry = ChildEntry(id: SheetId, name: string, filter: Option<string>)

  datatype Sheet = Sheet(children: seq<ChildEntry>, countRecords: int)

  datatype Store = Store(sheets: map<SheetId, Sheet>, polygons: map<(SheetId, string), Polygon>, next: nat)

  /** Every way an operation of the core rejects. */
  datatype Error =
    | ServiceFailure       // the service rejected a request (unknown sheet)
    | IncompletePartition  // `AddAsync` was given a partition without polygon data or name
    | NullPartition        // `Copy` read `.sheet` of the null `AddAsync` resolved to
    | OutOfFuel            // the recursion bound of `Copy` ran out

  // ---------------------------------------------------------------------
  // Generated polygon ids: "poly" followed by the decimal counter value.

  function DigitChar(d: nat): (c: char)
    requires d < 10
    ensures '0' <= c <= '9'
  {
    (('0' as int) + d) as char
  }

  predicate IsDigit(c: char) {
    '0' <= c <= '9'
  }

  function Digits(n: nat): (s: string)
    ensures s != [] && forall i :: 0 <= i < |s| ==> IsDigit(s[i])
    decreases n
  {
    if n < 10 then [DigitChar(n)] else Digits(n / 10) + [DigitChar(n % 10)]
  }

  /** Reads back a string of decimal digits. */
  function ParseDigits(s: string): nat
    requires forall i :: 0 <= i < |s| ==> IsDigit(s[i])
    decreases |s|
  {
    if s == [] then 0
    else
      assert IsDigit(s[|s| - 1]);
      10 * ParseDigits(s[..|s| - 1]) + (s[|s| - 1] as int - '0' as int)
  }

  lemma {:induction false} ParseDigitsOfDigits(n: nat)
    ensures ParseDigits(Digits(n)) == n
    decreases n
  {
    if n >= 10 {
      var s := Digits(n);
      assert s[..|s| - 1] == Digits(n / 10);
      ParseDigitsOfDigits(n / 10);
    }
  }

  const PolyPrefix: string := "poly"

  function PolyIdOf(n: nat): (id: string)
    ensures id != [] && FilterCodec.NoLineTerminator(id)
  {
    PolyPrefix + Digits(n)
  }

  /** The counter value a generated polygon id was made from, if it is one. */
  function PolyIndex(id: string): Option<nat> {
    if |id| > |PolyPrefix| && id[..|PolyPrefix|] == PolyPrefix
       && forall i :: |PolyPrefix| <= i < |id| ==> IsDigit(id[i])
    then Some(ParseDigits(id[|PolyPrefix|..]))
    else None
  }

  lemma PolyIndexOfPolyIdOf(n: nat)
    ensures PolyIndex(PolyIdOf(n)) == Some(n)
  {
    var id := PolyIdOf(n);
    assert id[|PolyPrefix|..] == Digits(n);
    assert id[..|PolyPrefix|] == PolyPrefix;
    ParseDigitsOfDigits(n);
  }

  /** The counter is ahead of every id in use: the sheets, the child ids they
      list and the generated polygon ids. */
  ghost predicate Fresh(st: Store) {
    && (forall s :: s in st.sheets ==> s < st.next)
    && (forall s, i :: s in st.sheets && 0 <= i < |st.sheets[s].children| ==> st.sheets[s].children[i].id < st.next)
    && (forall k :: k in st.polygons && PolyIndex(k.1).Some? ==> PolyIndex(k.1).value < st.next)
  }

  /** `b` is `a` with things added: no sheet, child entry, record count or
      polygon is removed or changed, and the counter never goes back. */
  ghost predicate Extends(a: Store, b: Store) {
    && a.next <= b.next
    && (forall s :: s in a.sheets ==>
          && s in b.sheets
          && b.sheets[s].countRecords == a.sheets[s].countRecords
          && a.sheets[s].children <= b.sheets[s].children)
    && (forall k :: k in a.polygons ==> k in b.polygons && b.polygons[k] == a.polygons[k])
  }

  lemma ExtendsTransitive(a: Store, b: Store, c: Store)
    requires Extends(a, b) && Extends(b, c)
    ensures Extends(a, c)
  {
    forall s | s in a.sheets
      ensures a.sheets[s].children <= c.sheets[s].children
    {
      var x, y, z := a.sheets[s].children, b.sheets[s].children, c.sheets[s].children;
      assert x == y[..|x|] && y == z[..|y|];
      assert z[..|y|][..|x|] == z[..|x|];
    }
  }

  /** Two states that each extend the other are the same state. */
  lemma ExtendsAntisymmetric(a: Store, b: Store)
    requires Extends(a, b) && Extends(b, a)
    ensures a == b
  {
    forall s | s in a.sheets
      ensures b.sheets[s] == a.sheets[s]
    {
      var x, y := a.sheets[s].children, b.sheets[s].children;
      assert x == y[..|x|] && y == x[..|y|];
    }
  }

  /** Some child of `sheet` carries the name `name`. */
  ghost predicate NamePresent(st: Store, sheet: SheetId, name: Option<string>) {
    sheet in st.sheets && exists i :: 0 <= i < |st.sheets[sheet].children| && Some(st.sheets[sheet].children[i].name) == name
  }

  lemma NamePresentPersists(a: Store, b: Store, sheet: SheetId, name: Option<string>)
    requires Extends(a, b) && NamePresent(a, sheet, name)
    ensures NamePresent(b, sheet, name)
  {
    var i :| 0 <= i < |a.sheets[sheet].children| && Some(a.sheets[sheet].children[i].name) == name;
    assert b.sheets[sheet].children[i] == a.sheets[sheet].children[i];
  }

  /** No child in `children` is named `name`. */
  predicate NameAbsent(children: seq<ChildEntry>, name: string) {
    forall j :: 0 <= j < |children| ==> children[j].name != name
  }

  /**
   `b` is `a` grown the way the core grows the service: it only adds, every
   sheet and child entry added since `a` has an id that the counter of `a`
   had not reached, and a child entry appended to a sheet of `a` has a name
   that no child of that sheet had in `a`.
   */
  ghost predicate Grows(a: Store, b: Store) {
    && Extends(a, b)
    && (forall s :: s in b.sheets && s !in a.sheets ==>
          s >= a.next && forall i :: 0 <= i < |b.sheets[s].children| ==> b.sheets[s].children[i].id >= a.next)
    && (forall s, i :: s in a.sheets && |a.sheets[s].children| <= i < |b.sheets[s].children| ==>
          b.sheets[s].children[i].id >= a.next && NameAbsent(a.sheets[s].children, b.sheets[s].children[i].name))
  }

  lemma GrowsReflexive(a: Store)
    ensures Grows(a, a)
  {
  }

  lemma GrowsTransitive(a: Store, b: Store, c: Store)
    requires Grows(a, b) && Grows(b, c)
    ensures Grows(a, c)
  {
    ExtendsTransitive(a, b, c);
    forall s, i | s in a.sheets && |a.sheets[s].children| <= i < |c.sheets[s].children|
      ensures c.sheets[s].children[i].id >= a.next && NameAbsent(a.sheets[s].children, c.sheets[s].children[i].name)
    {
      var x, y, z := a.sheets[s].children, b.sheets[s].children, c.sheets[s].children;
      assert y == z[..|y|];
      if i < |y| {
        assert z[i] == y[i];
      } else {
        assert forall j :: 0 <= j < |x| ==> x[j] == y[j];
      }
    }
  }

  /** Sheet `x` reads the same in `a` and `b`: both hold it or neither does,
      with the same entry, and `b` stores no polygon of `x` that `a` did not. */
  ghost predicate SameAt(a: Store, b: Store, x: SheetId) {
    && (x in a.sheets <==> x in b.sheets)
    && (x in a.sheets ==> b.sheets[x] == a.sheets[x])
    && (forall id :: (x, id) in b.polygons ==> (x, id) in a.polygons)
  }

  /** Every sheet below the counter of `a` other than `sheet` reads the same in `b`. */
  ghost predicate SameExcept(a: Store, b: Store, sheet: SheetId) {
    forall x: SheetId :: x != sheet && x < a.next ==> SameAt(a, b, x)
  }

  lemma SameAtTransitive(a: Store, b: Store, c: Store, x: SheetId)
    requires SameAt(a, b, x) && SameAt(b, c, x)
    ensures SameAt(a, c, x)
  {
  }

  /** A sheet that reads the same across two additions reads the same across each. */
  lemma SameAtBetween(a: Store, m: Store, b: Store, x: SheetId)
    requires Extends(a, m) && Extends(m, b) && SameAt(a, b, x)
    ensures SameAt(a, m, x) && SameAt(m, b, x)
  {
    if x in a.sheets {
      var p, q, r := a.sheets[x].children, m.sheets[x].children, b.sheets[x].children;
      assert q == r[..|q|];
    }
  }

  // ---------------------------------------------------------------------
  // The tree of sheets below a sheet

  /** `x` is `root` or a sheet that child entries lead to from `root` within `depth` steps. */
  ghost predicate InTree(st: Store, root: SheetId, depth: nat, x: SheetId)
    decreases depth
  {
    x == root
    || (depth > 0 && root in st.sheets
        && exists i :: 0 <= i < |st.sheets[root].children| && InTree(st, st.sheets[root].children[i].id, depth - 1, x))
  }

  /** `x` is the id of a child entry of `sheet`. */
  ghost predicate IsChildOf(st: Store, sheet: SheetId, x: SheetId) {
    sheet in st.sheets && exists i :: 0 <= i < |st.sheets[sheet].children| && st.sheets[sheet].children[i].id == x
  }

  lemma InTreeOfChild(st: Store, root: SheetId, depth: nat, child: SheetId, x: SheetId)
    requires depth > 0 && IsChildOf(st, root, child) && InTree(st, child, depth - 1, x)
    ensures InTree(st, root, depth, x)
  {
    var i :| 0 <= i < |st.sheets[root].children| && st.sheets[root].children[i].id == child;
    assert InTree(st, st.sheets[root].children[i].id, depth - 1, x);
  }

  /** Every sheet of a tree whose root the counter is ahead of is below the counter. */
  lemma {:induction false} InTreeBelowNext(st: Store, root: SheetId, depth: nat, x: SheetId)
    requires Fresh(st) && root < st.next && InTree(st, root, depth, x)
    ensures x < st.next
    decreases depth
  {
    if x != root {
      var cs := st.sheets[root].children;
      var i :| 0 <= i < |cs| && InTree(st, cs[i].id, depth - 1, x);
      InTreeBelowNext(st, cs[i].id, depth - 1, x);
    }
  }

  /** A tree whose sheets all read the same in `b` is no larger in `b`. */
  lemma {:induction false} InTreeSame(a: Store, b: Store, root: SheetId, depth: nat, x: SheetId)
    requires forall y :: InTree(a, root, depth, y) ==> SameAt(a, b, y)
    requires InTree(b, root, depth, x)
    ensures InTree(a, root, depth, x)
    decreases depth
  {
    if x != root {
      assert SameAt(a, b, root);
      var cs := b.sheets[root].children;
      var i :| 0 <= i < |cs| && InTree(b, cs[i].id, depth - 1, x);
      forall y | InTree(a, cs[i].id, depth - 1, y)
        ensures SameAt(a, b, y)
      {
        InTreeOfChild(a, root, depth, cs[i].id, y);
      }
      InTreeSame(a, b, cs[i].id, depth - 1, x);
      InTreeOfChild(a, root, depth, cs[i].id, x);
    }
  }

  /** In a grown store, a tree only gains sheets that did not exist before. */
  lemma {:induction false} InTreeGrows(a: Store, b: Store, root: SheetId, depth: nat, x: SheetId)
    requires Fresh(a) && Grows(a, b)
    ensures InTree(b, root, depth, x) ==> x >= a.next || InTree(a, root, depth, x)
    decreases depth
  {
    if x != root && InTree(b, root, depth, x) {
      var cs := b.sheets[root].children;
      var i :| 0 <= i < |cs| && InTree(b, cs[i].id, depth - 1, x);
      InTreeGrows(a, b, cs[i].id, depth - 1, x);
      if root in a.sheets && i < |a.sheets[root].children| {
        assert cs[i] == a.sheets[root].children[i];
        if x < a.next {
          InTreeOfChild(a, root, depth, cs[i].id, x);
        }
      } else {
        assert cs[i].id >= a.next;
        InTreeOfNew(a, cs[i].id, depth - 1, x);
      }
    }
  }

  /** Nothing lies below a sheet the store does not hold yet. */
  lemma InTreeOfNew(st: Store, root: SheetId, depth: nat, x: SheetId)
    requires Fresh(st) && root >= st.next
    ensures InTree(st, root, depth, x) ==> x == root
  {
  }

  // ---------------------------------------------------------------------
  // The collaborator operations the core calls.

  /** `SheetClient.getChildrenAsync` */
  function GetChildren(st: Store, sheet: SheetId): Result<seq<ChildEntry>, Error>
  {
    if sheet in st.sheets then Success(st.sheets[sheet].children) else Failure(ServiceFailure)
  }

  /** `SheetClient.getInfoAsync().CountRecords` */
  function GetCountRecords(st: Store, sheet: SheetId): Result<int, Error>
  {
    if sheet in st.sheets then Success(st.sheets[sheet].countRecords) else Failure(ServiceFailure)
  }

  /** `PolygonHelper.getPolygonByIdAsync`, scoped to the helper's sheet; null when absent. */
  function GetPolygonById(st: Store, sheet: SheetId, dataId: string): Option<Polygon>
  {
    if (sheet, dataId) in st.polygons then Some(st.polygons[(sheet, dataId)]) else None
  }

  /** `polygonSchemaFromPoints`: splits points into the parallel arrays. */
  function SchemaFromPoints(pts: seq<Point>): (poly: Polygon)
    ensures |poly.lat| == |pts| && |poly.long| == |pts|
    ensures forall k :: 0 <= k < |pts| ==> pts[k] == Point(poly.lat[k], poly.long[k])
  {
    Polygon(seq(|pts|, k requires 0 <= k < |pts| => pts[k].lat), seq(|pts|, k requires 0 <= k < |pts| => pts[k].long))
  }

  /** `PolygonHelper.createPolygon`: stores the vertices under a fresh id of
      `sheet` and resolves to that id.  The display name is not kept. */
  function CreatePolygon(st: Store, sheet: SheetId, name: string, vertices: seq<Point>): (r: (Store, string))
    ensures Fresh(st) ==> (sheet, r.1) !in st.polygons && Fresh(r.0) && Extends(st, r.0)
    ensures r.0.polygons == st.polygons[(sheet, r.1) := SchemaFromPoints(vertices)]
    ensures r.0.sheets == st.sheets
  {
    var id := PolyIdOf(st.next);
    PolyIndexOfPolyIdOf(st.next);
    (Store(st.sheets, st.polygons[(sheet, id) := SchemaFromPoints(vertices)], st.next + 1), id)
  }

  /** `SheetClient.createChildSheetFromFilterAsync(name, filter, false)`: a new,
      childless sheet, appended to the parent's children.  Rows are not
      modelled, so its record count is 0. */
  function CreateChildSheetFromFilter(st: Store, sheet: SheetId, name: string, filter: string): (r: (Store, SheetId))
    requires sheet in st.sheets
    ensures r.1 in r.0.sheets && r.0.sheets[r.1] == Sheet([], 0)
    ensures r.0.sheets.Keys == st.sheets.Keys + {r.1}
    ensures r.0.polygons == st.polygons
    ensures Fresh(st) ==> r.1 !in st.sheets && Fresh(r.0) && Extends(st, r.0)
    ensures Fresh(st) ==> r.0.sheets[sheet] == Sheet(st.sheets[sheet].children + [ChildEntry(r.1, name, Some(filter))], st.sheets[sheet].countRecords)
    ensures forall s :: s in st.sheets && s != sheet && s != r.1 ==> r.0.sheets[s] == st.sheets[s]
  {
    var id := st.next;
    var parent := st.sheets[sheet];
    var sheets := st.sheets[sheet := Sheet(parent.children + [ChildEntry(id, name, Some(filter))], parent.countRecords)];
    (Store(sheets[id := Sheet([], 0)], st.polygons, st.next + 1), id)
  }
}

=== FILE: task_helper.dfy ===
/**
 `TaskHelper.ForEachAsync` of geo.ts: applies an asynchronous handler to
 each input in turn, starting item i+1 only once item i has resolved, and
 collects the results in input order.  A rejection of the handler rejects
 the whole chain and no later item is handled.

 The handler's effects are made explicit: it receives the state left by the
 previous item and returns the state it leaves behind, or rejects with an
 error.
 */
module TaskHelper {
  import opened Wrappers

  /** Reference semantics: the outcome of running the first `k` items one after another. */
  function RunPrefix<S, A, B, E>(inputs: seq<A>, st: S, handler: (S, A) -> Result<(S, B), E>, k: nat)
    : (r: Result<(S, seq<B>), E>)
    requires k <= |inputs|
    ensures r.Success? ==> |r.value.1| == k
    decreases k
  {
    if k == 0 then Success((st, []))
    else
      match RunPrefix(inputs, st, handler, k - 1)
      case Failure(e) => Failure(e)
      case Success((s, outs)) =>
        match handler(s, inputs[k - 1])
        case Failure(e) => Failure(e)
        case Success((s', out)) => Success((s', outs + [out]))
  }

  /** geo.ts `Work`: handles `inputs[idx]`, appends its result to `outputs`, then continues with `idx + 1`. */
  function Work<S, A, B, E>(inputs: seq<A>, idx: nat, st: S, outputs: seq<B>, handler: (S, A) -> Result<(S, B), E>)
    : (r: Result<(S, seq<B>), E>)
    requires idx <= |inputs|
    ensures r.Success? ==> |r.value.1| == |outputs| + |inputs| - idx && r.value.1[..|outputs|] == outputs
    decreases |inputs| - idx
  {
    if idx == |inputs| then Success((st, outputs))
    else
      match handler(st, inputs[idx])
      case Failure(e) => Failure(e)
      case Success((s', out)) =>
        var r := Work(inputs, idx + 1, s', outputs + [out], handler);
        assert r.Success? ==> r.value.1[..|outputs|] == (r.value.1[..|outputs| + 1])[..|outputs|];
        r
  }

  /** geo.ts `ForEachAsync`: the chain of `Work` from the first item with no outputs yet. */
  function ForEachAsync<S, A, B, E>(inputs: seq<A>, st: S, handler: (S, A) -> Result<(S, B), E>)
    : (r: Result<(S, seq<B>), E>)
    ensures r == RunPrefix(inputs, st, handler, |inputs|)
    ensures r.Success? ==> |r.value.1| == |inputs|
  {
    WorkRunsTheRest(inputs, st, handler, 0);
    Work(inputs, 0, st, [], handler)
  }

  /** Once a prefix rejects, every longer prefix rejects with the same error. */
  lemma {:induction false} RejectionSticks<S, A, B, E>(inputs: seq<A>, st: S, handler: (S, A) -> Result<(S, B), E>, k: nat, k': nat)
    requires k <= k' <= |inputs|
    requires RunPrefix(inputs, st, handler, k).Failure?
    ensures RunPrefix(inputs, st, handler, k') == RunPrefix(inputs, st, handler, k)
    decreases k' - k
  {
    if k < k' {
      RejectionSticks(inputs, st, handler, k, k' - 1);
    }
  }

  /** `Work` from position `idx`, started in the state and with the outputs the
      first `idx` items produced, reaches the outcome of running all items. */
  lemma {:induction false} WorkRunsTheRest<S, A, B, E>(inputs: seq<A>, st: S, handler: (S, A) -> Result<(S, B), E>, idx: nat)
    requires idx <= |inputs|
    requires RunPrefix(inputs, st, handler, idx).Success?
    ensures var p := RunPrefix(inputs, st, handler, idx).value;
      Work(inputs, idx, p.0, p.1, handler) == RunPrefix(inputs, st, handler, |inputs|)
    decreases |inputs| - idx
  {
    if idx < |inputs| {
      var p := RunPrefix(inputs, st, handler, idx).value;
      match handler(p.0, inputs[idx])
      case Failure(e) =>
        RejectionSticks(inputs, st, handler, idx + 1, |inputs|);
      case Success((s', out)) =>
        WorkRunsTheRest(inputs, st, handler, idx + 1);
    }
  }

  /** Outputs of a shorter run are a prefix of the outputs of a longer run. */
  lemma {:induction false} PrefixOfSuccess<S, A, B, E>(inputs: seq<A>, st: S, handler: (S, A) -> Result<(S, B), E>, k: nat, k': nat)
    requires k <= k' <= |inputs|
    requires RunPrefix(inputs, st, handler, k').Success?
    ensures RunPrefix(inputs, st, handler, k).Success?
    ensures RunPrefix(inputs, st, handler, k).value.1 == RunPrefix(inputs, st, handler, k').value.1[..k]
    decreases k' - k
  {
    if k < k' {
      PrefixOfSuccess(inputs, st, handler, k, k' - 1);
      var outs := RunPrefix(inputs, st, handler, k').value.1;
      assert outs[..k' - 1] == RunPrefix(inputs, st, handler, k' - 1).value.1;
      assert outs[..k' - 1][..k] == outs[..k];
    }
  }

  /**
   Strict sequencing: when the whole chain resolves, item i was handled in
   exactly the state that items 0..i-1 left behind, and its result is output i.
   */
  lemma {:induction false} ForEachHandlesInOrder<S, A, B, E>(inputs: seq<A>, st: S, handler: (S, A) -> Result<(S, B), E>, i: nat)
    requires i < |inputs|
    requires ForEachAsync(inputs, st, handler).Success?
    ensures RunPrefix(inputs, st, handler, i).Success? && RunPrefix(inputs, st, handler, i + 1).Success?
    ensures handler(RunPrefix(inputs, st, handler, i).value.0, inputs[i])
         == Success((RunPrefix(inputs, st, handler, i + 1).value.0, ForEachAsync(inputs, st, handler).value.1[i]))
  {
    PrefixOfSuccess(inputs, st, handler, i + 1, |inputs|);
    PrefixOfSuccess(inputs, st, handler, i, i + 1);
    var outs := ForEachAsync(inputs, st, handler).value.1;
    assert RunPrefix(inputs, st, handler, i + 1).value.1 == outs[..i + 1];
  }

  /** The handler's result, in a state it leaves unchanged. */
  function ReadOnly<S, B, E>(st: S, r: Result<B, E>): Result<(S, B), E> {
    match r
    case Success(b) => Success((st, b))
    case Failure(e) => Failure(e)
  }

  /**
   A handler that only reads the state: the chain resolves iff every item
   resolves, leaves the state as it was, and output i is the result of item i.
   */
  lemma {:induction false} ReadOnlyForEach<S, A, B, E>(inputs: seq<A>, st: S, handler: (S, A) -> Result<(S, B), E>, f: A -> Result<B, E>)
    requires forall i :: 0 <= i < |inputs| ==> handler(st, inputs[i]) == ReadOnly(st, f(inputs[i]))
    ensures var r := ForEachAsync(inputs, st, handler);
      && (r.Success? <==> forall i :: 0 <= i < |inputs| ==> f(inputs[i]).Success?)
      && (r.Success? ==> r.value.0 == st && forall i :: 0 <= i < |inputs| ==> r.value.1[i] == f(inputs[i]).value)
  {
    ReadOnlyPrefix(inputs, st, handler, f, |inputs|);
  }

  lemma {:induction false} ReadOnlyPrefix<S, A, B, E>(inputs: seq<A>, st: S, handler: (S, A) -> Result<(S, B), E>, f: A -> Result<B, E>, k: nat)
    requires k <= |inputs|
    requires forall i :: 0 <= i < |inputs| ==> handler(st, inputs[i]) == ReadOnly(st, f(inputs[i]))
    ensures var r := RunPrefix(inputs, st, handler, k);
      && (r.Success? <==> forall i :: 0 <= i < k ==> f(inputs[i]).Success?)
      && (r.Success? ==> r.value.0 == st && forall i :: 0 <= i < k ==> r.value.1[i] == f(inputs[i]).value)
    decreases k
  {
    if k > 0 {
      ReadOnlyPrefix(inputs, st, handler, f, k - 1);
    }
  }
}

=== FILE: wrappers.dfy ===
/** Failure-compatible wrappers: `Option` stands for a value that JavaScript
    code may leave `null`, `Result` for a promise that resolves or rejects. */
module Wrappers {

  datatype Option<+T> = None | Some(value: T)

  datatype Result<+R, +E> = Success(value: R) | Failure(error: E)
}
